=== FILE: README.md ===
# AI Debate App: a Dafny model of its core

The AI Debate App is a browser app in which two AI agents debate a topic
the user chooses. They are called Nova and Sage by default. The agents
speak in turn. Each one generates a reply through Google Gemini, an
OpenAI-compatible endpoint or Anthropic, and the reply is spoken through
Gemini text-to-speech. A third model call rates every argument, and a meter
shows the running score.

This project models the core of that app as pure Dafny functions and proves
properties of it:

- **`utils/audioUtils.ts`**: `base64ToUint8Array` and `pcmToAudioBuffer`,
  in modules `Base64` and `AudioUtils`.
  - `Base64` models the browser's `atob`: forgiving base64 with white
    space and padding rules, and an RFC 4648 encoder as its partner.
  - `AudioUtils` covers the character-code loop and the aligned and copied
    `Int16Array` paths, including the `RangeError` on an odd byte length.
  - It also covers little-endian 16-bit samples and their normalisation to
    [-1, 1], de-interleaving into channels, and the limits `createBuffer`
    puts on channel count, length and sample rate.
- **`hooks/useAgent.ts`**, in modules `Retry` and `Agent`:
  - `retryWithBackoff`, over a scripted sequence of attempt outcomes.
  - The conversation log and the three request shapes with their defaults.
  - How each provider adapter turns an HTTP outcome into a value or a
    thrown error.
  - The thinking-label ticker and the agent status machine.
  - `speak`: the TTS key choice, first-audio-part search, decoding, and the
    end-of-playback race against the safety timeout.
  - `stop`.
- **`App.tsx`**, in modules `Persona`, `Judge` and `Orchestrator`:
  - Persona composition: `String.prototype.replace` with its `$`
    substitution patterns, and the mood suffix.
  - `judgeTurn`: JavaScript `parseInt`, the `|| 5` fallback, the score
    credit and the clamped momentum.
  - `startConversation` and `stopConversation`: the turn loop with its stop
    points, error handling and what the session records.
- **`components/DebateMeter.tsx`**, in module `Meter`: share percentages,
  leader and leader colour, label and flame thresholds, and `Math.round`.

Modules `Outcomes`, `Strings` and `Types` hold the shared vocabulary:

- `Option` and `Result`.
- The JavaScript string operations used: `includes`, `indexOf`, `trim`,
  `join` and `split`.
- The records of `types.ts` and the `||` fallback on strings.

Asynchronous behaviour is modelled as data. Network replies, attempt
outcomes, timer ticks, clock readings and the moment a stop click lands
are inputs to the functions. Each turn of the loop is described by a
`TurnScript` giving:

- the generated text or error;
- the number of label ticks;
- the clock reading;
- whether speech succeeded;
- at which point, if any, the user clicked Stop.

The loop abstracts the speech result to that one bit. `Agent.Speak`
models the speech call itself: the bit stands for whether
`Agent.SpeechAudio` yields a waveform for the TTS replies of that turn,
and no lemma links the two levels.

## Model

| member | source | states |
|---|---|---|
| Types.OrElse | hooks/useAgent.ts:132 | `a \|\| b` on an optional string: the value when present and non-empty, otherwise the fallback |
| Strings.Trim | App.tsx:112 | `trim` removes exactly the leading and trailing ECMAScript white space: the result is a slice of the input whose ends are not white space, and it is empty iff the input is blank |
| Strings.TrimPadded | App.tsx:112 | trimming blank padding off a text without outer white space gives the text back |
| Strings.IndexOf | App.tsx:88-89 | the first position where a pattern occurs, which `replace` rewrites; none iff the pattern occurs nowhere |
| Strings.SplitJoin | hooks/useAgent.ts:114 | splitting a newline-joined list of lines without newlines gives the lines back |
| Base64.GroupRoundTrip | utils/audioUtils.ts:5 | four digit values spelling three bytes decode back to those bytes |
| Base64.FromToSextets | utils/audioUtils.ts:5 | bytes turned into base64 digit values, a final partial group included, decode back to the same bytes |
| Base64.Encode | utils/audioUtils.ts:5 | the RFC 4648 padded encoding used as `atob`'s partner: its length is a multiple of 4 |
| Base64.RemoveAsciiWhitespace | utils/audioUtils.ts:5 | `atob` ignores ASCII white space: no white space is left, every other character is kept, and input without white space is unchanged |
| Base64.Atob | utils/audioUtils.ts:5 | `atob` yields a binary string, every character code below 256 |
| Base64.AtobEncode | utils/audioUtils.ts:5 | `atob` of an RFC 4648 encoding is the binary string of the encoded bytes |
| Base64.AtobRejectsForeign | utils/audioUtils.ts:5 | a character outside the alphabet, white space and `=` makes `atob` throw |
| AudioUtils.CharCodes | utils/audioUtils.ts:6-11 | the loop: a byte array as long as the binary string, byte `i` being character code `i` |
| AudioUtils.Base64Bytes | utils/audioUtils.ts:4-12 | `base64ToUint8Array` throws iff `atob` throws, and otherwise returns the character codes of the decoded string |
| AudioUtils.Base64ToUint8Array | utils/audioUtils.ts:4-12 | the method computing the bytes agrees with `Base64Bytes` |
| AudioUtils.DecodeEncoded | utils/audioUtils.ts:4-12 | decoding the base64 encoding of a byte string yields those bytes |
| AudioUtils.Int16RoundTrip | utils/audioUtils.ts:34 | a 16-bit sample written as a little-endian byte pair reads back as itself |
| AudioUtils.Int16Encodes | utils/audioUtils.ts:34 | every byte pair is the encoding of the sample it reads as |
| AudioUtils.AlignedSamples | utils/audioUtils.ts:33-35 | the in-place `Int16Array` view of an even view has half as many samples as bytes |
| AudioUtils.Samples | utils/audioUtils.ts:28-35 | decoding fails with `RangeError` iff the byte length is odd; otherwise sample `k` is bytes `2k` and `2k+1` of the view's contents |
| AudioUtils.AlignedEqualsCopied | utils/audioUtils.ts:28-35 | on a view with even offset and even length, the copy path and the in-place path give the same samples |
| AudioUtils.SamplesOnlyDependOnContents | utils/audioUtils.ts:28-35 | two views showing the same bytes decode the same, whatever their offsets into their buffers |
| AudioUtils.Normalise | utils/audioUtils.ts:46 | the float value of a sample lies in [-1, 1] and has the sample's sign |
| AudioUtils.NormaliseExtremes | utils/audioUtils.ts:46 | -32768 maps to -1 and 32767 to 1 |
| AudioUtils.NormaliseMonotone | utils/audioUtils.ts:46 | normalisation is strictly increasing |
| AudioUtils.Interleaved | utils/audioUtils.ts:44 | frame `i` of channel `c` is at a position inside the samples whose quotient by the channel count is `i` and whose remainder is `c` |
| AudioUtils.Channel | utils/audioUtils.ts:40-48 | channel `c` has one value per whole frame: its `i`-th value is the normalised sample of frame `i` of that channel |
| AudioUtils.DecodePcm | utils/audioUtils.ts:18-50 | `pcmToAudioBuffer` fails iff the byte length is odd or `createBuffer` rejects the channel count, the frame count or the rate; otherwise the buffer has the rate, the frame count, one channel per channel count and the normalised de-interleaved samples |
| AudioUtils.PcmToAudioBuffer | utils/audioUtils.ts:18-50 | the method with the loops computes `DecodePcm` |
| AudioUtils.FillChannel | utils/audioUtils.ts:41-47 | the inner loop fills a channel with the normalised samples of that channel, frame by frame |
| AudioUtils.DecodeMono | hooks/useAgent.ts:273 | speech PCM, mono at 24000 Hz, decodes iff it has a non-zero even byte length, with one frame per two bytes; all-zero bytes decode to silence |
| Retry.RetryFromSpec | hooks/useAgent.ts:17-34 | the loop from attempt `i` on: the waits are `baseDelay * 2^j` after each retryable failure, and it stops at the first success or non-retryable error |
| Retry.BackoffAt | hooks/useAgent.ts:26 | closed forms of the wait sequence and of "all retried" |
| Retry.RetryWithBackoff | hooks/useAgent.ts:10-35 | resolves iff some attempt within the budget succeeds with no ending attempt before it. The result is the value or error of the last attempt made. Every earlier attempt failed retryably, and the last one ends the loop or uses up the budget. A non-positive budget rethrows an undefined error without calling. Wait `j` follows a retryable failure and lasts `baseDelay * 2^j`. There is one wait per attempt made, minus one when the last attempt ends the loop |
| Retry.FatalFirstAttempt | hooks/useAgent.ts:29-31 | a non-retryable error is rethrown after one attempt without waiting |
| Retry.TwoRateLimitsThenSuccess | hooks/useAgent.ts:12-28 | with the defaults, two 429s and then a value: the value, after waits of 2000 and 4000 ms |
| Retry.ThreeRateLimitsExhaust | hooks/useAgent.ts:17-34 | with the defaults, three 429s: the third error is thrown after waits of 2000, 4000 and 8000 ms |
| Retry.StatusTextOnlyIsNotRetried | hooks/useAgent.ts:22-23 | an error whose message is the status text "Too Many Requests" is not retryable |
| Agent.RenderAll | hooks/useAgent.ts:114 | one line per message, in order, each being the sender, a colon and a space, then the text |
| Agent.ConversationLogAppend | hooks/useAgent.ts:114 | the log of a history with one more message is the old log, a newline and the new line, or just the new line for an empty history |
| Agent.ConversationLogLines | hooks/useAgent.ts:114 | when names and texts have no newline, splitting the log at newlines gives back one line per message |
| Agent.GeminiPrompt | hooks/useAgent.ts:115-126 | the Gemini prompt contains the instruction, the topic, the language and the log |
| Agent.ChatUserMessage | hooks/useAgent.ts:164 | the chat user message contains the topic and the log |
| Agent.BuildRequest | hooks/useAgent.ts:128-204 | Google gives a Gemini request, OpenAI and Custom give a chat-completions request, and Anthropic gives an Anthropic request. The Gemini contents hold the log and the language. The other two carry the log in the user message and the instruction as the system text |
| Agent.RequestDefaults | hooks/useAgent.ts:132-150 | Gemini uses the agent's key when it is non-empty and the environment key otherwise, and `gemini-2.5-flash` when no model is set; the chat adapters use the configured endpoint when it is non-empty and the OpenAI endpoint otherwise |
| Agent.ReplyText | hooks/useAgent.ts:145-203 | the reply text is empty iff the provider's field is missing or empty, and otherwise is that field |
| Agent.AdapterAttempt | hooks/useAgent.ts:131-204 | an attempt succeeds iff the response arrived with a readable body, and then its value is that body |
| Agent.HttpFailureRetried | hooks/useAgent.ts:169-200 | an HTTP failure is retried with Gemini's status. For the other providers it is retried only when the thrown message mentions 429 or 503 |
| Agent.AdapterAttempts | hooks/useAgent.ts:135-202 | the provider's attempts are the adapter applied to each wire outcome |
| Agent.ProviderResult | hooks/useAgent.ts:128-204 | the text is produced iff some of the three attempts succeeds with no ending attempt before it, and it is then the adapter's text field of that first success ("" when missing or empty); otherwise the error thrown is that of the last attempt made, which is the first non-retryable failure or the third attempt |
| Agent.MissingFieldGivesEmptyText | hooks/useAgent.ts:145-203 | a reply delivered on the first exchange without the provider's text field, or with it empty, resolves to "" |
| Agent.LabelAfter | hooks/useAgent.ts:105-111 | "Initializing..." before the first tick, the first six ticks show the six steps in order, and every later tick shows one of them |
| Agent.LabelCycles | hooks/useAgent.ts:109 | the label repeats every six ticks |
| Agent.BeginGenerate | hooks/useAgent.ts:104-111 | generation starts in Thinking with "Initializing..." and a running ticker |
| Agent.Tick | hooks/useAgent.ts:108-111 | ticks change only the label, and only while the ticker runs |
| Agent.EndGenerate | hooks/useAgent.ts:206-214 | success clears the label and keeps the status; failure sets Error and keeps the last label; both stop the ticker |
| Agent.Stop | hooks/useAgent.ts:306-312 | stop stops the ticker and sets Idle, leaving the label as it was |
| Agent.GenerateText | hooks/useAgent.ts:102-216 | the result is the provider's result; success leaves Thinking with an empty label, failure leaves Error with the label reached |
| Agent.TtsKey | hooks/useAgent.ts:243 | speech uses the agent's key only for a Google agent with a non-empty key, and otherwise the environment key |
| Agent.FirstAudio | hooks/useAgent.ts:259-268 | none iff no part carries non-empty audio data; otherwise the data of the first part that does |
| Agent.ResolveTime | hooks/useAgent.ts:285-294 | playback resolves when the audio ends or at duration + 500 ms, whichever comes first |
| Agent.Speak | hooks/useAgent.ts:222-304 | without a context: only Error, nothing played. With one: Speaking, then the TTS key is `TtsKey`. If the audio pipeline yields a waveform, that waveform is played, the status ends Idle, and the call resolves at the earlier of the end of playback and duration + 500 ms. Otherwise nothing is played, the status ends Error, and the failure is the pipeline's |
| Agent.SpeechAudio | hooks/useAgent.ts:246-273 | the waveform of a speech call, or the step that failed: a synthesis error, no part with audio data ("No audio data"), a payload `atob` rejects, or a PCM buffer that cannot be created; otherwise the 24000 Hz mono decoding of the first audio payload's bytes |
| Agent.SpeakPlaysEncodedPcm | hooks/useAgent.ts:259-297 | a TTS reply whose single part carries the base64 of an even, non-empty run of PCM bytes is played as exactly those bytes decoded at 24000 Hz mono, one frame per two bytes, and the agent ends Idle |
| Agent.AfterSpeak | hooks/useAgent.ts:222-304 | the agent's status after speaking is the last status of the run; the label and ticker are untouched |
| Agent.NoPayloadIsNoAudioData | hooks/useAgent.ts:270 | a TTS reply without audio data fails with "No audio data": Speaking, then Error |
| Judge.Decimal | App.tsx:162 | the decimal numeral of a number: digits only, no leading zero |
| Judge.DecimalValue | App.tsx:162 | the numeral's value is the number |
| Judge.DigitRun | App.tsx:112 | the longest run of leading digits |
| Judge.ParseInt | App.tsx:112 | `parseInt(s, 10)` is NaN iff no digit follows the leading white space and an optional sign |
| Judge.ParseIntNumeral | App.tsx:112 | `parseInt` reads back a numeral and a negative numeral, whatever non-digit text follows |
| Judge.JudgePrompt | App.tsx:110 | the judge prompt quotes the argument text |
| Judge.Rating | App.tsx:112 | the rating is never 0: a missing, blank, non-numeric or zero reply rates 5, and any other reply rates its parsed integer |
| Judge.RatingOfNumeral | App.tsx:112 | a padded numeral `n` rates `n`, or 5 when `n` is 0 |
| Judge.RatingOfNegative | App.tsx:112 | a padded negative numeral rates negative |
| Judge.TrimSigned | App.tsx:112 | trimming a padded signed numeral leaves the sign and digits |
| Judge.Clamp | App.tsx:120 | momentum is clamped to [-100, 100], and values inside are kept |
| Judge.Credit | App.tsx:114-121 | the rating goes to A's score iff the speaker is A's name and to B's otherwise; momentum moves three points per rating toward the speaker's side, clamped |
| Judge.JudgeTurn | App.tsx:107-126 | a verdict credits the rating. A failure changes nothing and is logged iff its message does not mention 429 |
| Judge.ApplyAllTotals | App.tsx:114-115 | after any sequence of verdicts each score is its start plus the ratings credited to it, and momentum stays in [-100, 100] |
| Judge.PositiveRatingsNeverLower | App.tsx:114-115 | with positive ratings only, neither score is lower after the verdicts land than before, whatever their order |
| Judge.SevenEach | App.tsx:107-121 | "7" for A and then "7" for B gives 7 and 7 with momentum back at 0 |
| Judge.MomentumDependsOnOrder | App.tsx:117-121 | because of clamping, the same two verdicts in the other order end at a different momentum |
| Judge.SharedNameCreditsA | App.tsx:114-115 | when both agents share a name every rating goes to A |
| Persona.ExpandPlain | App.tsx:88-89 | a replacement without `$` is inserted literally |
| Persona.ReplaceFirst | App.tsx:88-89 | `replace` with a string pattern leaves the text alone when the pattern is absent. Otherwise it keeps everything before the first occurrence, expands the replacement and keeps everything after |
| Persona.ReplaceAt | App.tsx:88-89 | with a `$`-free replacement, the first occurrence is swapped for the replacement |
| Persona.ReplaceSelf | App.tsx:88-89 | replacing a `$`-free pattern with itself changes nothing |
| Persona.ReplaceWithMatch | App.tsx:88-89 | the replacement `$&` reinserts the match, so nothing changes |
| Persona.ReplaceKeepsPrefix | App.tsx:88-89 | the text before the first occurrence is kept |
| Persona.ReplaceInserts | App.tsx:88-89 | a `$`-free replacement appears in the result |
| Persona.ConfigA | App.tsx:84-91 | agent A's configuration is its data with a new instruction, which ends in A's mood suffix |
| Persona.ConfigB | App.tsx:93-100 | agent B's configuration is its data with a new instruction, which ends in B's mood suffix |
| Persona.OwnNameReplaced | App.tsx:88 | the first `replace` swaps the persona's own name after "You are " |
| Persona.OpponentNameReplaced | App.tsx:89 | when the new own name does not contain the opponent placeholder, the second `replace` swaps the placeholder in the body |
| Persona.PersonaliseNames | App.tsx:87-89 | the personalised instruction opens with "You are", the own name and a full stop, and contains the opponent's name |
| Persona.ComposedInstructionsNameBoth | App.tsx:84-100 | for `$`-free names, with the own name not containing the opponent placeholder: each instruction opens with the agent's own name and mentions the opponent's, then ends in the mood suffix |
| Persona.DefaultInstructions | App.tsx:11-100 | with the default names and moods the instructions are the base texts plus the Neutral suffix |
| Persona.SwappedNamesMisnameA | App.tsx:84-91 | when A is renamed "Sage" and B "Nova", A's instruction still opens "You are Nova." |
| Orchestrator.WithAgent | App.tsx:102-103 | updating one agent's state leaves the other's alone |
| Orchestrator.StopSession | App.tsx:185-189 | stopping clears the flag and the active mark and sets both agents Idle; nothing recorded changes |
| Orchestrator.StopIf | App.tsx:185-189 | a stop click clears the flag and keeps everything recorded |
| Orchestrator.LoopErrorMessage | App.tsx:179 | "Error: " and the message, or "Unknown error" when the message is missing or empty |
| Orchestrator.Generate | App.tsx:161 | generation records nothing and clears the flag iff a stop lands during it |
| Orchestrator.Speak | hooks/useAgent.ts:222-304 | speaking records one speech request and clears the flag iff a stop lands during it |
| Orchestrator.Deliver | App.tsx:162-166 | a text is appended with its speaker and the clock reading, sent to the judge, spoken iff non-empty, and then the pause follows |
| Orchestrator.Turn | App.tsx:158-182 | a turn appends the generated text, judges it and speaks it when non-empty; a failure records nothing; the loop carries on iff no stop lands and the text arrived |
| Orchestrator.Run | App.tsx:158-176 | the loop keeps the entry count, is still running only if every turn carried on, and after the first stopped or failed turn `j` holds at most `k + j + 1` entries |
| Orchestrator.Start | App.tsx:128-153 | a blank topic only opens the settings. Otherwise the scores reset, and an audio failure shows "Audio Error: ..." without starting, while working audio starts the loop with an empty transcript and no error |
| Orchestrator.TurnCounted | App.tsx:158-176 | a turn adds at most one entry, exactly one while the loop runs |
| Orchestrator.TurnKeepsInv | App.tsx:158-176 | a turn keeps the alternation, judge and speech invariants |
| Orchestrator.RunKeepsInv | App.tsx:158-176 | the whole loop keeps them |
| Orchestrator.ConversationInvariants | App.tsx:128-189 | every session's transcript alternates A, B, A, ...; every entry went to the judge, in order; exactly the non-empty entries were spoken, by the right side; the session is active exactly while the loop runs |
| Orchestrator.RunWithoutInterruption | App.tsx:158-176 | without stops or failures the loop still runs after the script, with one entry per turn |
| Orchestrator.FailureStopsSession | App.tsx:177-182 | a failure while running shows the error and stops the session, leaving both agents Idle |
| Orchestrator.FailureAfterStopIsSilent | App.tsx:177-182 | a failure after a stop shows nothing and leaves the failing agent in Error |
| Orchestrator.StopDuringFirstGeneration | App.tsx:158-169 | a stop during A's first generation still appends and speaks A's text, and B never takes a turn. B ends Idle. A ends Idle when its speech succeeds or its text is empty, and in Error when a non-empty text fails to play |
| Orchestrator.BlankTopicStartsNothing | App.tsx:129 | a blank topic starts nothing and only opens the settings |
| Meter.Shares | components/DebateMeter.tsx:23-28 | 50/50 for a zero total; otherwise each share times the total is 100 times its score; over the reals the shares sum to 100 |
| Meter.SharesBounded | components/DebateMeter.tsx:27-28 | with non-negative scores both shares lie in [0, 100], ordered and equal exactly as the scores are |
| Meter.Leader | components/DebateMeter.tsx:31 | A's name when A is ahead, B's when B is ahead, "Tie" when equal |
| Meter.LeaderColour | components/DebateMeter.tsx:32 | A's colour when the leader text is A's name, otherwise B's colour when it is B's name, otherwise grey |
| Meter.Round | components/DebateMeter.tsx:66 | `Math.round` is within one half of its argument, halves rounding up |
| Meter.Label | components/DebateMeter.tsx:63-66 | a label shows iff the share exceeds 15, and then reads the rounded share |
| Meter.Flame | components/DebateMeter.tsx:65 | the flame is filled iff the share exceeds 50 |
| Meter.View | components/DebateMeter.tsx:14-98 | over the reals the shares sum to 100, the trophy is lit iff there is a leader, and a filled flame always comes with its label |
| Meter.MomentumIgnored | components/DebateMeter.tsx:5-21 | the momentum value never changes the meter |
| Meter.LabelsAndFlames | components/DebateMeter.tsx:63-96 | at least one label is shown and at most one flame is filled |
| Meter.RoundedLabelsNearHundred | components/DebateMeter.tsx:66-95 | two shown labels sum to 99, 100 or 101 |
| Meter.LeaderTellsWhoIsAhead | components/DebateMeter.tsx:31-44 | with distinct names, neither being "Tie", the leader line, trophy and colour tell exactly who is ahead |
| Meter.SharedNameShowsColourA | components/DebateMeter.tsx:32 | with two equal names, B's lead shows in A's colour |
| Meter.AgentNamedTie | components/DebateMeter.tsx:31-44 | an agent named "Tie" leading leaves the trophy dark, and a real tie shows in that agent's colour |
| Meter.NegativeScoreOverflowsBar | components/DebateMeter.tsx:27-28 | scores 3 and -1 give shares 150 and -50 |

### Where the code and the documented behaviour differ

The model follows the code in each of these cases.

- **Negative ratings.** A judge reply such as "-3" is parsed as -3 and
  credited. Cumulative scores can therefore fall, and the meter's shares
  can leave [0, 100]. Only 0 and NaN fall back to 5.
- **Mood suffix.** The suffix appended to each instruction starts with a
  space before the two newlines.
- **`$` in names.** Both `replace` calls in the persona composition
  interpret `$$`, `$&`, `` $` `` and `$'` in the new name.
- **Status-text errors.** Errors from the OpenAI-compatible and Anthropic
  adapters carry no status. A 429 or 503 from them is retried only when the
  message text mentions the code.
- **Stop during generation.** A stop click during an agent's generation
  does not end that agent's turn. The text is still appended, judged and
  spoken, and only the next turn is skipped.
- **Failed speech after a stop.** A stop during A's generation is
  documented to leave both agents Idle. The loop still speaks A's text
  after the stop, and a failed speech leaves A in Error.
- **Failure after a stop.** A generation failure after a stop leaves that
  agent in Error without a message.
- **Failure while running.** A generation failure while the loop runs
  stops the session, and that sets both agents Idle.
- **Swapped names.** If A is renamed to B's default name and B to A's, A's
  instruction still introduces A as "Nova". The first `replace` finds the
  new name already there, and the second then rewrites the opponent
  placeholder.
- **Language.** The OpenAI-compatible and Anthropic requests do not pass
  the chosen language.

## Left out

- Volume metering, the analyser node and the animation frame loop: they
  only feed the avatar display.
- Rendering and layout of every component, the settings dialog, and the
  lists of languages, providers and models: they are user interface.
- Resuming a suspended audio context, `ensureAnalyser`, and failures of
  `createBufferSource`, `connect` or `start`: these are browser calls and
  their failures are not visible to the core.
- Real timers and their cancellation are not modelled. `Agent.ResolveTime`
  gives only the resulting time: the earlier of `onended` and the 500 ms
  safety margin.
- Orchestrator.Run: judge calls run concurrently with the loop. A verdict
  may arrive after later turns, or even after a new session has started.
  The model applies verdicts in sequence (`Judge.ApplyAll`) and does not
  model interleavings or late verdicts from a previous session.
- Orchestrator.ConversationInvariants: holds for one loop at a time. Stop
  sets both agents Idle, and Start is disabled only while A is thinking
  (App.tsx:320). So Start can be pressed again while the old loop still
  awaits a generation, a playback or the turn delay. The restart sets the
  shared loop flag (App.tsx:153), and the old loop resumes alongside the
  new one. It may append to the new transcript (App.tsx:160-173), and its
  `generateText` may clear the new ticker (hooks/useAgent.ts:206). Such
  interleavings of two loops are not modelled.
- Orchestrator.Start: assumes no earlier loop is still pending, for the
  same reason.
- Judge.ParseInt: `parseInt` turns digit runs above 2^53 into rounded
  floating-point numbers. The model keeps the exact integer.
- Editing settings during a session: names, moods and keys are taken as
  fixed for a session.
- The message id is the decimal clock reading, and the id and timestamp
  use one clock reading. The code reads the clock twice, and the two
  readings may differ by a millisecond.
- The turn delay and other timers are modelled only as the point at which
  a stop click lands (`WhileWaiting`).
- Network, SDK and JSON parsing are inputs: each attempt's outcome, the
  HTTP status and body, and the TTS reply are given rather than computed.
- Agent.Speak: `AudioContext` sample-rate conversion and actual playback
  are not modelled. Only the decoded buffer and its duration are.
- Meter.Shares, Meter.View: shares are exact reals, not IEEE doubles.
  Their sum is exactly 100 only over the reals: for scores 1 and 2 the
  app's doubles sum to 99.99999999999999. A label can also differ by one
  at an exact half. For scores 23 and 17 the app computes 57.49999999999999
  and shows 57%, where the model shows 58.
- Float32 rounding of normalised samples is not modelled; samples are
  exact reals.

=== FILE: agent.dfy ===
/** One debater's runtime (hooks/useAgent.ts): the transcript flattened into
    a prompt, dispatch to the configured text provider under the retry
    policy, the status and progress-label state machine of `generateText`,
    `speak` and `stop`, and the speech pipeline from TTS reply to waveform.
    Network replies, timers and the audio device are inputs. */
module Agent {
  import opened Outcomes
  import opened Types
  import opened Strings
  import Retry
  import AudioUtils
  import Base64

  // ---------------------------------------------------------------------
  // Conversation log and prompts

  /** A transcript entry as the prompt shows it: "sender: text". */
  function Render(m: ChatMessage): string {
    m.sender + ": " + m.text
  }

  function RenderAll(history: seq<ChatMessage>): (lines: seq<string>)
    ensures |lines| == |history|
    ensures forall i :: 0 <= i < |history| ==> lines[i] == Render(history[i])
  {
    seq(|history|, i requires 0 <= i < |history| => Render(history[i]))
  }

  /** The history, in order, one rendered entry per line. */
  function ConversationLog(history: seq<ChatMessage>): string {
    Join(RenderAll(history), "\n")
  }

  /** Appending an entry appends one line to the log. */
  lemma {:induction false} ConversationLogAppend(history: seq<ChatMessage>, m: ChatMessage)
    ensures ConversationLog(history + [m]) ==
      if |history| == 0 then Render(m) else ConversationLog(history) + "\n" + Render(m)
  {
    JoinAppend(RenderAll(history), Render(m), "\n");
    assert RenderAll(history + [m]) == RenderAll(history) + [Render(m)];
  }

  lemma {:induction false} JoinAppend(parts: seq<string>, last: string, sep: string)
    ensures Join(parts + [last], sep) == if |parts| == 0 then last else Join(parts, sep) + sep + last
  {
    if |parts| >= 2 {
      assert (parts + [last])[1..] == parts[1..] + [last];
      JoinAppend(parts[1..], last, sep);
    } else if |parts| == 1 {
      assert (parts + [last])[1..] == [last];
    }
  }

  /** When no sender or text contains a line break, the lines of the log are
      exactly the rendered entries, in order. */
  lemma ConversationLogLines(history: seq<ChatMessage>)
    requires |history| >= 1
    requires forall i :: 0 <= i < |history| ==> '\n' !in history[i].sender && '\n' !in history[i].text
    ensures Split(ConversationLog(history), '\n') == RenderAll(history)
  {
    var lines := RenderAll(history);
    forall k | 0 <= k < |lines|
      ensures '\n' !in lines[k]
    {
      assert lines[k] == history[k].sender + ": " + history[k].text;
    }
    SplitJoin(lines, '\n');
  }

  /** A string contains its own head. */
  lemma ContainsHead(t: string, rest: string)
    ensures Contains(t + rest, t)
  {
    assert OccursAt(t + rest, t, 0);
  }

  /** What a suffix contains, the whole string contains. */
  lemma ContainsShift(a: string, b: string, t: string)
    requires Contains(b, t)
    ensures Contains(a + b, t)
  {
    var i :| 0 <= i <= |b| && OccursAt(b, t, i);
    assert (a + b)[|a| + i..|a| + i + |t|] == b[i..i + |t|];
    assert OccursAt(a + b, t, |a| + i);
  }

  /** The Gemini prompt: identity, persona, topic, language and the log,
      laid out as the template literal lays them out. */
  function GeminiPrompt(config: AgentConfig, topic: string, language: string, log: string): (p: string)
    ensures Contains(p, config.systemInstruction) && Contains(p, topic) && Contains(p, language) && Contains(p, log)
  {
    var tail := "\n      \n      Respond to the last message as " + config.name
      + ". Keep it concise (2-3 sentences).\n      ";
    var fromLog := log + tail;
    var fromLanguage := language + ("\n      \n      Conversation History:\n      " + fromLog);
    var fromTopic := topic + ("\n      Language: " + fromLanguage);
    var fromInstruction := config.systemInstruction + ("\n      \n      Debate Topic: " + fromTopic);
    var p := "\n      You are " + config.name + ".\n      " + fromInstruction;
    ContainsHead(log, tail);
    ContainsShift("\n      \n      Conversation History:\n      ", fromLog, log);
    ContainsShift(language, "\n      \n      Conversation History:\n      " + fromLog, log);
    ContainsHead(language, "\n      \n      Conversation History:\n      " + fromLog);
    ContainsShift("\n      Language: ", fromLanguage, log);
    ContainsShift("\n      Language: ", fromLanguage, language);
    ContainsShift(topic, "\n      Language: " + fromLanguage, log);
    ContainsShift(topic, "\n      Language: " + fromLanguage, language);
    ContainsHead(topic, "\n      Language: " + fromLanguage);
    ContainsShift("\n      \n      Debate Topic: ", fromTopic, log);
    ContainsShift("\n      \n      Debate Topic: ", fromTopic, language);
    ContainsShift("\n      \n      Debate Topic: ", fromTopic, topic);
    var rest := "\n      \n      Debate Topic: " + fromTopic;
    ContainsShift(config.systemInstruction, rest, log);
    ContainsShift(config.systemInstruction, rest, language);
    ContainsShift(config.systemInstruction, rest, topic);
    ContainsHead(config.systemInstruction, rest);
    var head := "\n      You are " + config.name + ".\n      ";
    ContainsShift(head, fromInstruction, log);
    ContainsShift(head, fromInstruction, language);
    ContainsShift(head, fromInstruction, topic);
    ContainsShift(head, fromInstruction, config.systemInstruction);
    p
  }

  /** The user turn the chat-style adapters send: topic, log and the name
      to answer as. The language is not part of it. */
  function ChatUserMessage(topic: string, log: string, name: string): (u: string)
    ensures Contains(u, topic) && Contains(u, log)
  {
    var fromLog := log + ("\n\nRespond as " + name + ".");
    var fromTopic := topic + ("\n\nHistory:\n" + fromLog);
    var u := "Topic: " + fromTopic;
    ContainsHead(log, "\n\nRespond as " + name + ".");
    ContainsShift("\n\nHistory:\n", fromLog, log);
    ContainsShift(topic, "\n\nHistory:\n" + fromLog, log);
    ContainsHead(topic, "\n\nHistory:\n" + fromLog);
    ContainsShift("Topic: ", fromTopic, log);
    ContainsShift("Topic: ", fromTopic, topic);
    u
  }

  // ---------------------------------------------------------------------
  // Provider dispatch

  const DefaultGeminiModel := "gemini-2.5-flash"
  const DefaultChatEndpoint := "https://api.openai.com/v1/chat/completions"
  const AnthropicEndpoint := "https://api.anthropic.com/v1/messages"
  const AnthropicVersion := "2023-06-01"
  const AnthropicMaxTokens := 1024
  const ChatTemperature := 0.7

  /** The request one attempt of `generateText` sends. */
  datatype Request =
    | GeminiRequest(apiKey: Option<string>, model: string, contents: string)
    | ChatCompletionsRequest(endpoint: string, bearer: string, model: string, system: string,
                             user: string, temperature: real)
    | AnthropicRequest(endpoint: string, xApiKey: string, version: string, model: string,
                       maxTokens: int, system: string, user: string)

  /** The request `generateText` builds for the agent's provider; `envKey`
      is the deployment's shared key. */
  function BuildRequest(config: AgentConfig, history: seq<ChatMessage>, topic: string, language: string,
                        envKey: Option<string>): (r: Request)
    ensures r.GeminiRequest? <==> config.provider == Google
    ensures r.ChatCompletionsRequest? <==> config.provider == OpenAI || config.provider == Custom
    ensures r.AnthropicRequest? <==> config.provider == Anthropic
    ensures r.GeminiRequest? ==> Contains(r.contents, ConversationLog(history)) && Contains(r.contents, language)
    ensures !r.GeminiRequest? ==> Contains(r.user, ConversationLog(history)) && r.system == config.systemInstruction
  {
    var log := ConversationLog(history);
    match config.provider
    case Google =>
      GeminiRequest(if config.apiKey.Some? && config.apiKey.value != "" then config.apiKey else envKey,
                    OrElse(Some(config.model), DefaultGeminiModel),
                    GeminiPrompt(config, topic, language, log))
    case OpenAI =>
      ChatCompletionsRequest(OrElse(config.apiEndpoint, DefaultChatEndpoint), "Bearer " + OrElse(config.apiKey, ""),
                             config.model, config.systemInstruction, ChatUserMessage(topic, log, config.name),
                             ChatTemperature)
    case Custom =>
      ChatCompletionsRequest(OrElse(config.apiEndpoint, DefaultChatEndpoint), "Bearer " + OrElse(config.apiKey, ""),
                             config.model, config.systemInstruction, ChatUserMessage(topic, log, config.name),
                             ChatTemperature)
    case Anthropic =>
      AnthropicRequest(AnthropicEndpoint, OrElse(config.apiKey, ""), AnthropicVersion, config.model,
                       AnthropicMaxTokens, config.systemInstruction, ChatUserMessage(topic, log, config.name))
  }

  /** Keys and defaults: Gemini uses the agent's key when one is set and the
      shared key otherwise, and its default model when none is set; the
      chat adapters use the configured endpoint when one is set and the
      OpenAI endpoint otherwise. */
  lemma RequestDefaults(config: AgentConfig, history: seq<ChatMessage>, topic: string, language: string,
                        envKey: Option<string>)
    ensures var r := BuildRequest(config, history, topic, language, envKey);
      && (r.GeminiRequest? ==>
            && (config.apiKey.Some? && config.apiKey.value != "" ==> r.apiKey == config.apiKey)
            && (config.apiKey.None? || config.apiKey.value == "" ==> r.apiKey == envKey)
            && r.model == (if config.model == "" then DefaultGeminiModel else config.model))
      && (r.ChatCompletionsRequest? ==>
            && (config.apiEndpoint.Some? && config.apiEndpoint.value != "" ==> r.endpoint == config.apiEndpoint.value)
            && (config.apiEndpoint.None? || config.apiEndpoint.value == "" ==> r.endpoint == DefaultChatEndpoint))
  {
  }

  /** The fields of a provider reply the adapters read: Gemini's `text`,
      the chat API's `choices`, Anthropic's `content`. */
  datatype Reply = Reply(text: Option<string>, choices: Option<seq<Choice>>, content: Option<seq<ContentBlock>>)
  datatype Choice = Choice(message: Option<ChoiceMessage>)
  datatype ChoiceMessage = ChoiceMessage(content: Option<string>)
  datatype ContentBlock = ContentBlock(text: Option<string>)

  /** The field the provider's adapter takes the text from:
      `text`, `choices[0].message.content` or `content[0].text`. */
  function ReplyField(provider: Provider, reply: Reply): Option<string> {
    match provider
    case Google => reply.text
    case Anthropic =>
      if reply.content.Some? && |reply.content.value| > 0 then reply.content.value[0].text else None
    case _ =>
      if reply.choices.Some? && |reply.choices.value| > 0 && reply.choices.value[0].message.Some?
      then reply.choices.value[0].message.value.content
      else None
  }

  /** The generated text: the adapter's field, or "" when it is missing. */
  function ReplyText(provider: Provider, reply: Reply): (t: string)
    ensures t == "" <==> ReplyField(provider, reply).None? || ReplyField(provider, reply) == Some("")
    ensures t != "" ==> ReplyField(provider, reply) == Some(t)
  {
    OrElse(ReplyField(provider, reply), "")
  }

  /** What one attempt's network exchange produced: a rejected call (a
      network failure, or an error the Gemini SDK throws), an HTTP failure
      with the error body's `error.message` if the body parsed, or a
      successful response whose body may fail to parse. */
  datatype WireOutcome =
    | Rejected(error: JsError)
    | HttpFailure(status: int, statusText: string, errorBody: Result<Option<string>, JsError>)
    | Delivered(body: Result<Reply, JsError>)

  /** How each adapter turns one exchange into a value or a thrown error.
      The chat adapter throws `new Error(error.message || statusText)`
      (or the body's parse error); the Anthropic adapter throws
      `new Error(statusText)`; neither error carries the status. The Gemini
      SDK's error is taken to carry the HTTP status. */
  function AdapterAttempt(provider: Provider, w: WireOutcome): (a: Retry.Attempt<Reply>)
    ensures w.Delivered? && w.body.Ok? <==> a.Succeeded?
    ensures a.Succeeded? ==> a.value == w.body.value
  {
    match w
    case Rejected(e) => Retry.Threw(e)
    case Delivered(Ok(r)) => Retry.Succeeded(r)
    case Delivered(Err(e)) => Retry.Threw(e)
    case HttpFailure(status, statusText, body) =>
      match provider
      case Google => Retry.Threw(JsError(Some(statusText), Some(status), None))
      case Anthropic => Retry.Threw(ErrorWithMessage(statusText))
      case _ =>
        match body
        case Err(e) => Retry.Threw(e)
        case Ok(message) => Retry.Threw(ErrorWithMessage(OrElse(message, statusText)))
  }

  /** Gemini retries every HTTP 429 and 503; the fetch-based adapters retry
      an HTTP failure only when the message they throw mentions 429 or 503,
      whatever the status was. */
  lemma HttpFailureRetried(provider: Provider, status: int, statusText: string, message: Option<string>)
    ensures var a := AdapterAttempt(provider, HttpFailure(status, statusText, Ok(message)));
      && (provider == Google && (status == 429 || status == 503) ==> !Retry.Ends(a))
      && (provider == Anthropic ==> (!Retry.Ends(a) <==>
            Contains(statusText, "429") || Contains(statusText, "503")))
      && ((provider == OpenAI || provider == Custom) ==> (!Retry.Ends(a) <==>
            Contains(OrElse(message, statusText), "429") || Contains(OrElse(message, statusText), "503")))
  {
  }

  /** The attempts one provider call makes, exchange by exchange. */
  function AdapterAttempts(provider: Provider, wire: seq<WireOutcome>): (a: seq<Retry.Attempt<Reply>>)
    ensures |a| == |wire|
    ensures forall k :: 0 <= k < |wire| ==> a[k] == AdapterAttempt(provider, wire[k])
  {
    seq(|wire|, i requires 0 <= i < |wire| => AdapterAttempt(provider, wire[i]))
  }

  /** The text `generateText` resolves to, or the error it rethrows: the
      attempts of the provider call under the default retry policy, the
      first success's text extracted by the provider's adapter. */
  function ProviderResult(provider: Provider, wire: seq<WireOutcome>): (r: Result<string, JsError>)
    requires |wire| >= Retry.DefaultMaxRetries
    ensures r.Ok? <==> exists k :: (0 <= k < Retry.DefaultMaxRetries
      && AdapterAttempt(provider, wire[k]).Succeeded?
      && forall j :: 0 <= j < k ==> !Retry.Ends(AdapterAttempt(provider, wire[j])))
    ensures r.Ok? ==> exists k :: (0 <= k < Retry.DefaultMaxRetries
      && AdapterAttempt(provider, wire[k]).Succeeded?
      && (forall j :: 0 <= j < k ==> !Retry.Ends(AdapterAttempt(provider, wire[j])))
      && r.value == ReplyText(provider, AdapterAttempt(provider, wire[k]).value))
    ensures r.Err? ==> exists k :: (0 <= k < Retry.DefaultMaxRetries
      && AdapterAttempt(provider, wire[k]).Threw?
      && (forall j :: 0 <= j < k ==> !Retry.Ends(AdapterAttempt(provider, wire[j])))
      && (Retry.Ends(AdapterAttempt(provider, wire[k])) || k == Retry.DefaultMaxRetries - 1)
      && r.error == AdapterAttempt(provider, wire[k]).error)
  {
    var attempts := AdapterAttempts(provider, wire);
    var run := Retry.RetryWithBackoff(attempts, Retry.DefaultMaxRetries, Retry.DefaultBaseDelay);
    var last := run.attempts - 1;
    assert 0 <= last < Retry.DefaultMaxRetries;
    assert forall j :: 0 <= j < last ==> !Retry.Ends(AdapterAttempt(provider, wire[j]));
    match run.result
    case Ok(reply) =>
      assert attempts[last].Succeeded? && attempts[last].value == reply;
      Ok(ReplyText(provider, reply))
    case Err(Some(e)) =>
      assert attempts[last].Threw? && attempts[last].error == e;
      Err(e)
    case Err(None) => assert false; Err(ErrorWithMessage(""))
  }

  /** A reply that arrives on the first exchange without the provider's
      text field resolves to the empty text, as does one whose field is
      empty. */
  lemma MissingFieldGivesEmptyText(provider: Provider, reply: Reply, wire: seq<WireOutcome>)
    requires |wire| >= Retry.DefaultMaxRetries
    requires wire[0] == Delivered(Ok(reply))
    requires ReplyField(provider, reply).None? || ReplyField(provider, reply) == Some("")
    ensures ProviderResult(provider, wire) == Ok("")
  {
    assert AdapterAttempt(provider, wire[0]).Succeeded?;
    assert Retry.Ends(AdapterAttempt(provider, wire[0]));
  }

  // ---------------------------------------------------------------------
  // Agent status machine

  /** The cosmetic progress labels, cycled while thinking. */
  const ThinkingSteps := [
    "Analyzing context...",
    "Searching Google for facts...",
    "Reviewing case studies...",
    "Calculating probabilities...",
    "Verifying sources...",
    "Formulating argument..."
  ]
  const InitialLabel := "Initializing..."

  /** An agent's observable state: its status, its progress label, and
      whether the label timer is running. */
  datatype AgentState = AgentState(status: AgentStatus, thinkingLabel: string, labelTimer: bool)

  const Initial := AgentState(Idle, "", false)

  /** The label after `ticks` firings of the 800 ms timer: the initial
      label, then the steps in order, round and round. */
  function LabelAfter(ticks: nat): (l: string)
    ensures ticks == 0 <==> l == InitialLabel
    ensures ticks > 0 ==> l in ThinkingSteps
    ensures 1 <= ticks <= |ThinkingSteps| ==> l == ThinkingSteps[ticks - 1]
  {
    if ticks == 0 then InitialLabel else ThinkingSteps[(ticks - 1) % |ThinkingSteps|]
  }

  /** Once the timer has fired, the label repeats every six firings. */
  lemma LabelCycles(ticks: nat)
    requires ticks > 0
    ensures LabelAfter(ticks + |ThinkingSteps|) == LabelAfter(ticks)
  {
    var k := ticks - 1;
    assert k + 6 == (k / 6 + 1) * 6 + k % 6;
    AudioUtils.DivModUnique(k + 6, 6, k / 6 + 1, k % 6);
    assert (ticks + |ThinkingSteps| - 1) % |ThinkingSteps| == k % 6;
  }

  /** `generateText` starts: Thinking, the initial label, the timer on. */
  function BeginGenerate(s: AgentState): (t: AgentState)
    ensures t.status == Thinking && t.thinkingLabel == InitialLabel && t.labelTimer
  {
    AgentState(Thinking, InitialLabel, true)
  }

  /** The timer has fired `ticks` times; it only changes the label while it
      runs. */
  function Tick(s: AgentState, ticks: nat): (t: AgentState)
    ensures t.status == s.status && t.labelTimer == s.labelTimer
    ensures t.thinkingLabel == if s.labelTimer && ticks > 0 then LabelAfter(ticks) else s.thinkingLabel
  {
    if s.labelTimer && ticks > 0 then s.(thinkingLabel := LabelAfter(ticks)) else s
  }

  /** `generateText` finishes: the timer stops; on success the label is
      cleared and the status left as it is, on failure the status becomes
      Error and the label is left as it is. */
  function EndGenerate(s: AgentState, result: Result<string, JsError>): (t: AgentState)
    ensures !t.labelTimer
    ensures result.Ok? ==> t.status == s.status && t.thinkingLabel == ""
    ensures result.Err? ==> t.status == Error && t.thinkingLabel == s.thinkingLabel
  {
    if result.Ok? then s.(thinkingLabel := "", labelTimer := false)
    else s.(status := Error, labelTimer := false)
  }

  /** `stop`: the timer stops and the status is forced to Idle; the label
      is left as it is, and a failure to stop playback is swallowed. */
  function Stop(s: AgentState): (t: AgentState)
    ensures t.status == Idle && !t.labelTimer && t.thinkingLabel == s.thinkingLabel
  {
    s.(status := Idle, labelTimer := false)
  }

  /** One uninterrupted `generateText` call: the request sent, the state
      after it, and the text it resolves to or the error it rethrows. */
  datatype GenerateRun = GenerateRun(request: Request, state: AgentState, result: Result<string, JsError>)

  function GenerateText(s: AgentState, config: AgentConfig, history: seq<ChatMessage>, topic: string,
                        language: string, envKey: Option<string>, wire: seq<WireOutcome>, ticks: nat)
    : (run: GenerateRun)
    requires |wire| >= Retry.DefaultMaxRetries
    ensures run.result == ProviderResult(config.provider, wire)
    ensures run.result.Ok? ==> run.state == AgentState(Thinking, "", false)
    ensures run.result.Err? ==> run.state == AgentState(Error, LabelAfter(ticks), false)
  {
    var result := ProviderResult(config.provider, wire);
    GenerateRun(BuildRequest(config, history, topic, language, envKey),
                EndGenerate(Tick(BeginGenerate(s), ticks), result),
                result)
  }

  // ---------------------------------------------------------------------
  // Speech

  const TtsModel := "gemini-2.5-flash-preview-tts"

  /** The key the speech call uses: the agent's own key only when the agent
      is on Google and has one set, otherwise the shared key. */
  function TtsKey(config: AgentConfig, envKey: Option<string>): (k: Option<string>)
    ensures config.provider == Google && config.apiKey.Some? && config.apiKey.value != "" ==> k == config.apiKey
    ensures config.provider != Google || config.apiKey.None? || config.apiKey.value == "" ==> k == envKey
  {
    if config.provider == Google && config.apiKey.Some? && config.apiKey.value != "" then config.apiKey else envKey
  }

  /** A part of the first candidate's content in a TTS reply. */
  datatype Part = Part(inlineData: Option<InlineData>)
  datatype InlineData = InlineData(data: Option<string>)

  /** The TTS reply as read through `candidates?.[0]?.content?.parts`. */
  datatype TtsReply = TtsReply(parts: Option<seq<Part>>)

  /** The audio payload a part carries, "" when it has none. */
  function PartAudio(p: Part): string {
    if p.inlineData.Some? && p.inlineData.value.data.Some? then p.inlineData.value.data.value else ""
  }

  /** The payload of the first part that carries a non-empty one. */
  function FirstAudio(parts: seq<Part>): (r: Option<string>)
    ensures r.None? <==> forall i :: 0 <= i < |parts| ==> PartAudio(parts[i]) == ""
    ensures r.Some? ==> r.value != "" && exists i :: (0 <= i < |parts| && PartAudio(parts[i]) == r.value
      && forall j :: 0 <= j < i ==> PartAudio(parts[j]) == "")
  {
    if |parts| == 0 then None
    else if PartAudio(parts[0]) != "" then Some(PartAudio(parts[0]))
    else
      var r := FirstAudio(parts[1..]);
      assert forall i :: 1 <= i < |parts| ==> parts[i] == parts[1..][i - 1];
      r
  }

  /** Why `speak` ended in Error. */
  datatype SpeechFailure =
    | NoAudioContext
    | SynthesisFailed(error: JsError)
    | NoAudioData
    | InvalidBase64
    | DecodeFailed(reason: AudioUtils.AudioError)

  /** One `speak` call: the statuses it set, in order, the TTS key it used
      (if it got that far), the waveform it played and when the call
      resolved (ms after playback started), or why it failed. It never
      rejects. */
  datatype SpeakRun = SpeakRun(statuses: seq<AgentStatus>, ttsKey: Option<Option<string>>,
                               played: Option<AudioUtils.AudioBuffer>, resolvedAt: real,
                               failure: Option<SpeechFailure>)

  /** The safety net: the call resolves when `onended` fires or, if that
      never happens or comes later, `duration * 1000 + 500` ms after start. */
  function ResolveTime(duration: real, endedAt: Option<real>): (t: real)
    ensures t <= duration * 1000.0 + 500.0
    ensures endedAt.Some? && endedAt.value <= duration * 1000.0 + 500.0 ==> t == endedAt.value
    ensures endedAt.None? ==> t == duration * 1000.0 + 500.0
    ensures endedAt.Some? && endedAt.value > duration * 1000.0 + 500.0 ==> t == duration * 1000.0 + 500.0
  {
    var deadline := duration * 1000.0 + 500.0;
    if endedAt.Some? && endedAt.value <= deadline then endedAt.value else deadline
  }

  /** The TTS call under the retry policy with its defaults. */
  function Synthesis(tts: seq<Retry.Attempt<TtsReply>>): Result<TtsReply, Option<JsError>>
    requires |tts| >= Retry.DefaultMaxRetries
  {
    Retry.RetryWithBackoff(tts, Retry.DefaultMaxRetries, Retry.DefaultBaseDelay).result
  }

  /** The bytes of a payload seen as a `Uint8Array` over its own buffer. */
  function WholeView(bytes: seq<Byte>): AudioUtils.View {
    AudioUtils.Uint8View(bytes, 0, |bytes|)
  }

  /** The waveform `speak` plays, or the step at which it gives up: the TTS
      reply, its first audio payload, the payload's bytes, and their
      decoding as 24 kHz mono PCM. */
  function SpeechAudio(tts: seq<Retry.Attempt<TtsReply>>): (r: Result<AudioUtils.AudioBuffer, SpeechFailure>)
    requires |tts| >= Retry.DefaultMaxRetries
    ensures Synthesis(tts).Err? ==> r == Err(SynthesisFailed(Synthesis(tts).error.GetOr(ErrorWithMessage(""))))
    ensures Synthesis(tts).Ok? && FirstAudio(Synthesis(tts).value.parts.GetOr([])).None? ==> r == Err(NoAudioData)
    ensures Synthesis(tts).Ok? && FirstAudio(Synthesis(tts).value.parts.GetOr([])).Some? ==>
      var payload := FirstAudio(Synthesis(tts).value.parts.GetOr([])).value;
      && (AudioUtils.Base64Bytes(payload).Err? ==> r == Err(InvalidBase64))
      && (AudioUtils.Base64Bytes(payload).Ok? ==>
            var decoded := AudioUtils.DecodePcm(WholeView(AudioUtils.Base64Bytes(payload).value), AudioUtils.SpeechSampleRate, 1);
            && (decoded.Err? ==> r == Err(DecodeFailed(decoded.error)))
            && (decoded.Ok? ==> r == Ok(decoded.value)))
    ensures r.Ok? ==> r.value.sampleRate == AudioUtils.SpeechSampleRate && |r.value.channels| == 1
  {
    match Synthesis(tts)
    case Err(e) => Err(SynthesisFailed(e.GetOr(ErrorWithMessage(""))))
    case Ok(reply) =>
      match FirstAudio(reply.parts.GetOr([]))
      case None => Err(NoAudioData)
      case Some(payload) =>
        match AudioUtils.Base64Bytes(payload)
        case Err(_) => Err(InvalidBase64)
        case Ok(bytes) =>
          match AudioUtils.DecodePcm(WholeView(bytes), AudioUtils.SpeechSampleRate, 1)
          case Err(e) => Err(DecodeFailed(e))
          case Ok(buffer) => Ok(buffer)
  }

  /** `speak(text)`: with an audio context, Speaking, then the TTS call
      under the retry policy, the first audio payload, base64 and PCM
      decoding at 24 kHz mono, and playback; Idle when playback completes,
      Error on any failure. Without a context, Error at once. */
  function Speak(config: AgentConfig, envKey: Option<string>, hasContext: bool,
                 tts: seq<Retry.Attempt<TtsReply>>, endedAt: Option<real>): (run: SpeakRun)
    requires |tts| >= Retry.DefaultMaxRetries
    ensures |run.statuses| >= 1
    ensures run.statuses[|run.statuses| - 1] == if run.failure.None? then Idle else Error
    ensures hasContext <==> run.statuses[0] == Speaking
    ensures !hasContext <==> run.failure == Some(NoAudioContext)
    ensures !hasContext ==> run.statuses == [Error] && run.played.None?
    ensures hasContext ==> run.ttsKey == Some(TtsKey(config, envKey))
    ensures run.failure.None? <==> run.played.Some?
    ensures hasContext && SpeechAudio(tts).Ok? ==>
      && run.played == Some(SpeechAudio(tts).value)
      && run.statuses == [Speaking, Idle]
      && run.resolvedAt == ResolveTime(AudioUtils.Duration(SpeechAudio(tts).value), endedAt)
    ensures hasContext && SpeechAudio(tts).Err? ==>
      && run.played.None?
      && run.statuses == [Speaking, Error]
      && run.failure == Some(SpeechAudio(tts).error)
    ensures run.played.Some? ==> (run.played.value.sampleRate == AudioUtils.SpeechSampleRate
      && run.resolvedAt <= AudioUtils.Duration(run.played.value) * 1000.0 + 500.0)
  {
    if !hasContext then SpeakRun([Error], None, None, 0.0, Some(NoAudioContext))
    else
      var key := Some(TtsKey(config, envKey));
      match SpeechAudio(tts)
      case Err(f) => SpeakRun([Speaking, Error], key, None, 0.0, Some(f))
      case Ok(buffer) =>
        SpeakRun([Speaking, Idle], key, Some(buffer), ResolveTime(AudioUtils.Duration(buffer), endedAt), None)
  }

  /** A TTS reply whose first attempt succeeds with a single part carrying
      the base64 encoding of an even, non-empty run of PCM bytes is played:
      the waveform is exactly those bytes decoded as 24 kHz mono, and the
      agent ends Idle. */
  lemma SpeakPlaysEncodedPcm(config: AgentConfig, envKey: Option<string>, bytes: seq<Byte>,
                             tts: seq<Retry.Attempt<TtsReply>>, endedAt: Option<real>)
    requires |tts| >= Retry.DefaultMaxRetries
    requires |bytes| >= 2 && |bytes| % 2 == 0
    requires tts[0] == Retry.Succeeded(TtsReply(Some([Part(Some(InlineData(Some(Base64.Encode(bytes)))))])))
    ensures AudioUtils.DecodePcm(WholeView(bytes), AudioUtils.SpeechSampleRate, 1).Ok?
    ensures var run := Speak(config, envKey, true, tts, endedAt);
      && run.played == Some(AudioUtils.DecodePcm(WholeView(bytes), AudioUtils.SpeechSampleRate, 1).value)
      && run.statuses == [Speaking, Idle]
      && run.played.value.length == |bytes| / 2
  {
    var encoded := Base64.Encode(bytes);
    assert Synthesis(tts) == Ok(tts[0].value);
    AudioUtils.DecodeEncoded(bytes);
    assert FirstAudio(tts[0].value.parts.value) == Some(encoded);
    AudioUtils.DecodeMono(WholeView(bytes));
  }

  /** The agent's state after `speak` has resolved. */
  function AfterSpeak(s: AgentState, run: SpeakRun): (t: AgentState)
    requires |run.statuses| >= 1
    ensures t.status == run.statuses[|run.statuses| - 1]
    ensures t.thinkingLabel == s.thinkingLabel && t.labelTimer == s.labelTimer
  {
    s.(status := run.statuses[|run.statuses| - 1])
  }

  /** A TTS reply whose parts carry no payload makes `speak` end in Error
      with "No audio data", still resolving. */
  lemma NoPayloadIsNoAudioData(config: AgentConfig, envKey: Option<string>,
                               tts: seq<Retry.Attempt<TtsReply>>, endedAt: Option<real>)
    requires |tts| >= Retry.DefaultMaxRetries
    requires tts[0].Succeeded?
    requires forall i :: 0 <= i < |tts[0].value.parts.GetOr([])| ==> PartAudio(tts[0].value.parts.GetOr([])[i]) == ""
    ensures Speak(config, envKey, true, tts, endedAt).failure == Some(NoAudioData)
    ensures Speak(config, envKey, true, tts, endedAt).statuses == [Speaking, Error]
  {
    var synthesis := Retry.RetryWithBackoff(tts, Retry.DefaultMaxRetries, Retry.DefaultBaseDelay);
    assert synthesis.result == Ok(tts[0].value);
  }
}

=== FILE: audio.dfy ===
/** The audio helpers of utils/audioUtils.ts: base64 text to bytes, and raw
    16-bit little-endian PCM bytes to a normalised multi-channel waveform. */
module AudioUtils {
  import opened Outcomes
  import opened Types
  import Base64

  /** A signed 16-bit value: an element of an `Int16Array`. */
  type Int16 = x: int | -32768 <= x < 32768

  /** A `Uint8Array`: `byteLength` bytes of the underlying `buffer`,
      starting at `byteOffset`. */
  datatype Uint8View = Uint8View(buffer: seq<Byte>, byteOffset: nat, byteLength: nat)

  /** A view never reaches past the end of its buffer. */
  type View = v: Uint8View | v.byteOffset + v.byteLength <= |v.buffer|
    witness Uint8View([], 0, 0)

  /** The bytes a view shows. */
  function Contents(v: View): (b: seq<Byte>)
    ensures |b| == v.byteLength
  {
    v.buffer[v.byteOffset..v.byteOffset + v.byteLength]
  }

  /** Exceptions the decoding path can raise: a `RangeError` from the
      `Int16Array` constructor, a `NotSupportedError` from `createBuffer`. */
  datatype AudioError = RangeError | NotSupportedError

  /** A decoded `AudioBuffer`: one sequence of samples per channel. */
  datatype AudioBuffer = AudioBuffer(sampleRate: int, length: nat, channels: seq<seq<real>>)

  /** Playing time in seconds. */
  function Duration(b: AudioBuffer): real
    requires b.sampleRate > 0
  {
    b.length as real / b.sampleRate as real
  }

  // ---------------------------------------------------------------------
  // base64ToUint8Array

  /** The loop of `base64ToUint8Array`: byte `i` of the result is the code
      of character `i` of the binary string. */
  method CharCodes(binary: string) returns (bytes: seq<Byte>)
    requires forall k :: 0 <= k < |binary| ==> binary[k] as int < 256
    ensures |bytes| == |binary|
    ensures forall i :: 0 <= i < |bytes| ==> bytes[i] == binary[i] as int
  {
    var len := |binary|;
    var a := new Byte[len];
    for i := 0 to len
      invariant forall j :: 0 <= j < i ==> a[j] == binary[j] as int
    {
      a[i] := binary[i] as int;
    }
    bytes := a[..];
  }

  /** The bytes `base64ToUint8Array` returns: the character codes of the
      binary string `atob` decodes, or the exception `atob` throws. */
  function Base64Bytes(base64: string): (r: Result<seq<Byte>, Base64.DomException>)
    ensures r.Err? <==> Base64.Atob(base64).Err?
    ensures r.Ok? ==> |r.value| == |Base64.Atob(base64).value|
    ensures r.Ok? ==> forall i :: 0 <= i < |r.value| ==> r.value[i] == Base64.Atob(base64).value[i] as int
  {
    match Base64.Atob(base64)
    case Err(e) => Err(e)
    case Ok(binary) => Ok(seq(|binary|, i requires 0 <= i < |binary| => binary[i] as int))
  }

  /** `base64ToUint8Array`: `atob` the text (whose exception propagates),
      then copy the character codes of the binary string into a byte array. */
  method Base64ToUint8Array(base64: string) returns (r: Result<seq<Byte>, Base64.DomException>)
    ensures r == Base64Bytes(base64)
  {
    var decoded := Base64.Atob(base64);
    if decoded.Err? {
      return Err(decoded.error);
    }
    var bytes := CharCodes(decoded.value);
    assert bytes == Base64Bytes(base64).value;
    r := Ok(bytes);
  }

  /** Decoding an RFC 4648 encoding yields the encoded bytes. */
  lemma DecodeEncoded(b: seq<Byte>)
    ensures Base64Bytes(Base64.Encode(b)) == Ok(b)
  {
    Base64.AtobEncode(b);
    var r := Base64Bytes(Base64.Encode(b));
    assert r.value == b;
  }

  // ---------------------------------------------------------------------
  // 16-bit samples

  /** The two's-complement value of a little-endian byte pair. */
  function Int16LE(lo: Byte, hi: Byte): Int16 {
    var u := lo + 256 * hi;
    if u >= 32768 then u - 65536 else u
  }

  /** The low byte of a sample's two's-complement encoding. */
  function LowByte(s: Int16): Byte {
    (s + 65536) % 256
  }

  /** The high byte of a sample's two's-complement encoding. */
  function HighByte(s: Int16): Byte {
    ((s + 65536) % 65536) / 256
  }

  /** Reading a sample back from its two bytes gives the sample. */
  lemma Int16RoundTrip(s: Int16)
    ensures Int16LE(LowByte(s), HighByte(s)) == s
  {
  }

  /** Every byte pair is the encoding of the sample it decodes to. */
  lemma Int16Encodes(lo: Byte, hi: Byte)
    ensures LowByte(Int16LE(lo, hi)) == lo && HighByte(Int16LE(lo, hi)) == hi
  {
  }

  /** Sample `k` of a byte sequence: bytes `2k` (low) and `2k+1` (high). */
  function SampleAt(b: seq<Byte>, k: nat): Int16
    requires 2 * k + 1 < |b|
  {
    Int16LE(b[2 * k], b[2 * k + 1])
  }

  /** The `Int16Array` view taken when offset and length are both even: it
      reads the underlying buffer in place. */
  function AlignedSamples(v: View): (s: seq<Int16>)
    requires v.byteOffset % 2 == 0 && v.byteLength % 2 == 0
    ensures |s| == v.byteLength / 2
  {
    seq(v.byteLength / 2, k requires 0 <= k < v.byteLength / 2 =>
      Int16LE(v.buffer[v.byteOffset + 2 * k], v.buffer[v.byteOffset + 2 * k + 1]))
  }

  /** The `Int16Array` over a fresh copy of the view's bytes; its constructor
      throws a `RangeError` when that copy has an odd length. */
  function CopiedSamples(v: View): (r: Result<seq<Int16>, AudioError>)
  {
    var copy := Contents(v);
    if |copy| % 2 != 0 then Err(RangeError)
    else Ok(seq(|copy| / 2, k requires 0 <= k < |copy| / 2 => Int16LE(copy[2 * k], copy[2 * k + 1])))
  }

  /** The sample array `pcmToAudioBuffer` decodes: a copy when offset or
      length is odd, the in-place view otherwise. It fails exactly when the
      length is odd; otherwise sample `k` comes from bytes `2k` and `2k+1` of
      the view, so an odd offset does not change any sample. */
  function Samples(v: View): (r: Result<seq<Int16>, AudioError>)
    ensures r.Err? <==> v.byteLength % 2 != 0
    ensures r.Err? ==> r.error == RangeError
    ensures r.Ok? ==> |r.value| == v.byteLength / 2
    ensures r.Ok? ==> forall k :: 0 <= k < |r.value| ==> r.value[k] == SampleAt(Contents(v), k)
  {
    if v.byteOffset % 2 != 0 || v.byteLength % 2 != 0 then CopiedSamples(v)
    else Ok(AlignedSamples(v))
  }

  /** The in-place path and the copy path agree on every even-length view. */
  lemma AlignedEqualsCopied(v: View)
    requires v.byteOffset % 2 == 0 && v.byteLength % 2 == 0
    ensures CopiedSamples(v) == Ok(AlignedSamples(v))
  {
    var copy := Contents(v);
    var c := CopiedSamples(v).value;
    var a := AlignedSamples(v);
    assert |a| == |c|;
    forall k | 0 <= k < |a|
      ensures a[k] == c[k]
    {
      assert copy[2 * k] == v.buffer[v.byteOffset + 2 * k];
      assert copy[2 * k + 1] == v.buffer[v.byteOffset + 2 * k + 1];
    }
    assert a == c;
  }

  /** Two views showing the same bytes decode to the same samples, whatever
      their offsets into their buffers. */
  lemma SamplesOnlyDependOnContents(v: View, w: View)
    requires Contents(v) == Contents(w)
    ensures Samples(v) == Samples(w)
  {
    if v.byteLength % 2 == 0 {
      var a := Samples(v).value;
      var b := Samples(w).value;
      assert |a| == |b|;
      forall k | 0 <= k < |a|
        ensures a[k] == b[k]
      {
      }
      assert a == b;
    }
  }

  // ---------------------------------------------------------------------
  // Normalisation

  /** The float value of a sample: negative samples over 32768, the others
      over 32767. */
  function Normalise(s: Int16): (x: real)
    ensures -1.0 <= x <= 1.0
    ensures (x < 0.0 <==> s < 0) && (x == 0.0 <==> s == 0)
  {
    if s < 0 then s as real / 32768.0 else s as real / 32767.0
  }

  /** Both extremes map exactly onto the ends of [-1, 1]. */
  lemma NormaliseExtremes()
    ensures Normalise(-32768) == -1.0 && Normalise(32767) == 1.0
  {
  }

  /** Normalisation is strictly increasing, so distinct samples stay distinct
      and keep their order. */
  lemma NormaliseMonotone(s: Int16, t: Int16)
    requires s < t
    ensures Normalise(s) < Normalise(t)
  {
    if s < 0 && t >= 0 {
    } else if s < 0 {
      assert s as real / 32768.0 < t as real / 32768.0;
    } else {
      assert s as real / 32767.0 < t as real / 32767.0;
    }
  }

  // ---------------------------------------------------------------------
  // pcmToAudioBuffer

  /** The position of frame `i` of channel `c` among `n` interleaved
      channels: `i * n + c`, inside the `count` samples whenever the frame is
      one of the `count / n` whole frames. */
  function Interleaved(i: nat, n: nat, c: nat, count: nat): (k: nat)
    requires 0 < n && c < n && i < count / n
    ensures k < count && k / n == i && k % n == c
  {
    var frames := count / n;
    assert i * n <= (frames - 1) * n by {
      assert i <= frames - 1;
    }
    assert frames * n <= count;
    DivModUnique(i * n + c, n, i, c);
    i * n + c
  }

  lemma MulAtLeast(d: int, n: int)
    requires d >= 1 && n > 0
    ensures d * n >= n
  {
    assert d * n == (d - 1) * n + n;
  }

  /** Euclidean division has one quotient and remainder. */
  lemma DivModUnique(k: int, n: int, q: int, r: int)
    requires 0 < n && 0 <= r < n && k == q * n + r
    ensures k / n == q && k % n == r
  {
    var q', r' := k / n, k % n;
    assert k == q' * n + r';
    assert (q - q') * n == r' - r by {
      assert q * n - q' * n == (q - q') * n;
    }
    if q > q' {
      MulAtLeast(q - q', n);
    } else if q < q' {
      MulAtLeast(q' - q, n);
    }
  }

  /** The normalised samples of channel `c`: every `n`-th sample from `c`. */
  function Channel(samples: seq<Int16>, n: nat, c: nat): (ch: seq<real>)
    requires 0 < n && c < n
    ensures |ch| == |samples| / n
    ensures forall i :: 0 <= i < |ch| ==> ch[i] == Normalise(samples[Interleaved(i, n, c, |samples|)])
  {
    seq(|samples| / n, i requires 0 <= i < |samples| / n => Normalise(samples[Interleaved(i, n, c, |samples|)]))
  }

  /** `createBuffer` accepts 1 to 32 channels, a non-zero length and a sample
      rate from 3000 to 768000 Hz (section 1.1 of the Web Audio API). */
  predicate CreateBufferAccepts(numChannels: int, length: int, sampleRate: int) {
    1 <= numChannels <= 32 && length >= 1 && 3000 <= sampleRate <= 768000
  }

  /** What `pcmToAudioBuffer` produces: an error exactly when the byte
      length is odd or `createBuffer` refuses the shape; otherwise
      `numChannels` channels of `byteLength / 2 / numChannels` frames, frame
      `i` of channel `c` being the normalised interleaved sample
      `i * numChannels + c`. */
  function DecodePcm(data: View, sampleRate: int, numChannels: int): (r: Result<AudioBuffer, AudioError>)
    ensures r.Err? <==> (data.byteLength % 2 != 0 ||
      !CreateBufferAccepts(numChannels, if numChannels > 0 then data.byteLength / 2 / numChannels else 0, sampleRate))
    ensures data.byteLength % 2 != 0 ==> r == Err(RangeError)
    ensures r.Ok? ==> r.value.sampleRate == sampleRate
    ensures r.Ok? ==> r.value.length == data.byteLength / 2 / numChannels
    ensures r.Ok? ==> |r.value.channels| == numChannels
    ensures r.Ok? ==> forall c :: 0 <= c < numChannels ==> |r.value.channels[c]| == r.value.length
    ensures r.Ok? ==> forall c, i :: 0 <= c < numChannels && 0 <= i < r.value.length ==>
      r.value.channels[c][i] == Normalise(SampleAt(Contents(data), Interleaved(i, numChannels, c, data.byteLength / 2)))
  {
    match Samples(data)
    case Err(e) => Err(e)
    case Ok(samples) =>
      var frameCount := if numChannels > 0 then |samples| / numChannels else 0;
      if !CreateBufferAccepts(numChannels, frameCount, sampleRate) then Err(NotSupportedError)
      else Ok(AudioBuffer(sampleRate, frameCount,
                          seq(numChannels, c requires 0 <= c < numChannels => Channel(samples, numChannels, c))))
  }

  /** `pcmToAudioBuffer`: decode the samples, then fill each channel frame by
      frame, normalising each sample. */
  method PcmToAudioBuffer(data: View, sampleRate: int, numChannels: int)
    returns (r: Result<AudioBuffer, AudioError>)
    ensures r == DecodePcm(data, sampleRate, numChannels)
  {
    var samples :- Samples(data);
    var frameCount := if numChannels > 0 then |samples| / numChannels else 0;
    if !CreateBufferAccepts(numChannels, frameCount, sampleRate) {
      return Err(NotSupportedError);
    }
    var channels: seq<seq<real>> := [];
    for channel := 0 to numChannels
      invariant |channels| == channel
      invariant forall c :: 0 <= c < channel ==> channels[c] == Channel(samples, numChannels, c)
    {
      var channelData := FillChannel(samples, numChannels, channel);
      channels := channels + [channelData];
    }
    assert channels == seq(numChannels, c requires 0 <= c < numChannels => Channel(samples, numChannels, c));
    r := Ok(AudioBuffer(sampleRate, frameCount, channels));
  }

  /** The inner loop of `pcmToAudioBuffer`: frame by frame, the normalised
      samples of one channel. */
  method FillChannel(samples: seq<Int16>, numChannels: nat, channel: nat) returns (data: seq<real>)
    requires 0 < numChannels && channel < numChannels
    ensures |data| == |samples| / numChannels
    ensures forall i :: 0 <= i < |data| ==>
      data[i] == Normalise(samples[Interleaved(i, numChannels, channel, |samples|)])
  {
    var frameCount := |samples| / numChannels;
    var channelData := new real[frameCount];
    for i := 0 to frameCount
      invariant forall j :: 0 <= j < i ==>
        channelData[j] == Normalise(samples[Interleaved(j, numChannels, channel, |samples|)])
    {
      var sample := samples[Interleaved(i, numChannels, channel, |samples|)];
      channelData[i] := if sample < 0 then sample as real / 32768.0 else sample as real / 32767.0;
    }
    data := channelData[..];
  }

  /** The sample rate the speech pipeline decodes at. */
  const SpeechSampleRate := 24000

  /** Mono PCM at the speech sample rate has one frame per two bytes; a
      buffer of only zero bytes decodes to silence. */
  lemma DecodeMono(data: View)
    ensures var r := DecodePcm(data, SpeechSampleRate, 1);
      && (data.byteLength % 2 == 0 && data.byteLength >= 2 <==> r.Ok?)
      && (r.Ok? ==> r.value.length == data.byteLength / 2)
      && (r.Ok? && (forall k :: 0 <= k < |Contents(data)| ==> Contents(data)[k] == 0) ==>
            forall i :: 0 <= i < r.value.length ==> r.value.channels[0][i] == 0.0)
  {
    var r := DecodePcm(data, SpeechSampleRate, 1);
    if r.Ok? && (forall k :: 0 <= k < |Contents(data)| ==> Contents(data)[k] == 0) {
      assert |r.value.channels| == 1;
      forall i | 0 <= i < r.value.length
        ensures r.value.channels[0][i] == 0.0
      {
        var k := Interleaved(i, 1, 0, data.byteLength / 2);
        assert SampleAt(Contents(data), k) == 0;
      }
    }
  }
}

=== FILE: base64.dfy ===
/** Base64 decoding as `atob` performs it (the forgiving-base64 decode of the
    WHATWG Infra standard over the alphabet of section 4 of RFC 4648), the
    padded encoder of that section as its partner, and
    `base64ToUint8Array` (utils/audioUtils.ts). */
module Base64 {
  import opened Outcomes
  import opened Types

  /** A 6-bit digit value. */
  type Sextet = x: int | 0 <= x < 64

  /** `atob` throws a `DOMException` named InvalidCharacterError. */
  datatype DomException = InvalidCharacterError

  /** The digit of value `v` in the base64 alphabet (Table 1 of RFC 4648). */
  function CharOf(v: Sextet): char
  {
    if v < 26 then ('A' as int + v) as char
    else if v < 52 then ('a' as int + (v - 26)) as char
    else if v < 62 then ('0' as int + (v - 52)) as char
    else if v == 62 then '+'
    else '/'
  }

  predicate IsAlphabet(c: char) {
    'A' <= c <= 'Z' || 'a' <= c <= 'z' || '0' <= c <= '9' || c == '+' || c == '/'
  }

  /** The value of a base64 digit; the inverse of `CharOf`. */
  function ValueOf(c: char): (v: Sextet)
    requires IsAlphabet(c)
    ensures CharOf(v) == c
  {
    if 'A' <= c <= 'Z' then c as int - 'A' as int
    else if 'a' <= c <= 'z' then c as int - 'a' as int + 26
    else if '0' <= c <= '9' then c as int - '0' as int + 52
    else if c == '+' then 62
    else 63
  }

  lemma ValueOfCharOf(v: Sextet)
    ensures IsAlphabet(CharOf(v)) && ValueOf(CharOf(v)) == v
  {
  }

  /** Three bytes as four digit values, most significant bits first. */
  function EncodeGroup(x: Byte, y: Byte, z: Byte): (v: seq<Sextet>)
    ensures |v| == 4
  {
    [x / 4, (x % 4) * 16 + y / 16, (y % 16) * 4 + z / 64, z % 64]
  }

  /** Four digit values as the three bytes whose 24 bits they spell. */
  function DecodeGroup(a: Sextet, b: Sextet, c: Sextet, d: Sextet): (r: seq<Byte>)
    ensures |r| == 3
  {
    var x: Byte := a * 4 + b / 16;
    var y: Byte := (b % 16) * 16 + c / 4;
    var z: Byte := (c % 4) * 64 + d;
    [x, y, z]
  }

  lemma GroupRoundTrip(x: Byte, y: Byte, z: Byte)
    ensures var v := EncodeGroup(x, y, z); DecodeGroup(v[0], v[1], v[2], v[3]) == [x, y, z]
  {
  }

  /** The digit values of a byte string, three bytes to four digits; a final
      one or two bytes give two or three digits (a group padded with zero
      bytes, cut short). */
  function ToSextets(b: seq<Byte>): (v: seq<Sextet>)
    ensures |v| % 4 == [0, 2, 3][|b| % 3]
  {
    if |b| == 0 then []
    else if |b| == 1 then EncodeGroup(b[0], 0, 0)[..2]
    else if |b| == 2 then EncodeGroup(b[0], b[1], 0)[..3]
    else EncodeGroup(b[0], b[1], b[2]) + ToSextets(b[3..])
  }

  /** The bytes that digit values stand for, four digits to three bytes; a
      final two or three digits give one or two bytes and their leftover
      bits are dropped. */
  function FromSextets(v: seq<Sextet>): (b: seq<Byte>)
    requires |v| % 4 != 1
    ensures |b| == 3 * (|v| / 4) + [0, 0, 1, 2][|v| % 4]
  {
    if |v| == 0 then []
    else if |v| == 2 then DecodeGroup(v[0], v[1], 0, 0)[..1]
    else if |v| == 3 then DecodeGroup(v[0], v[1], v[2], 0)[..2]
    else DecodeGroup(v[0], v[1], v[2], v[3]) + FromSextets(v[4..])
  }

  /** The digit values `ToSextets` produces decode back to the bytes. */
  lemma {:induction false} FromToSextets(b: seq<Byte>)
    ensures FromSextets(ToSextets(b)) == b
  {
    if |b| == 1 {
      GroupRoundTrip(b[0], 0, 0);
    } else if |b| == 2 {
      GroupRoundTrip(b[0], b[1], 0);
    } else if |b| >= 3 {
      var v := ToSextets(b);
      assert v[4..] == ToSextets(b[3..]);
      GroupRoundTrip(b[0], b[1], b[2]);
      FromToSextets(b[3..]);
      assert b == b[..3] + b[3..];
    }
  }

  function Digits(v: seq<Sextet>): (s: string)
    ensures |s| == |v|
    ensures forall k :: 0 <= k < |s| ==> IsAlphabet(s[k])
  {
    seq(|v|, k requires 0 <= k < |v| => ValueOfCharOfOf(v[k]))
  }

  /** `CharOf`, carrying the fact that the digit is in the alphabet. */
  function ValueOfCharOfOf(x: Sextet): (c: char)
    ensures IsAlphabet(c) && ValueOf(c) == x
  {
    ValueOfCharOf(x);
    CharOf(x)
  }

  function Values(s: string): (v: seq<Sextet>)
    requires forall k :: 0 <= k < |s| ==> IsAlphabet(s[k])
    ensures |v| == |s|
  {
    seq(|s|, k requires 0 <= k < |s| => ValueOf(s[k]))
  }

  /** The padding section 4 of RFC 4648 appends to a final partial group. */
  function Padding(n: nat): string {
    ["", "==", "="][n % 3]
  }

  /** Padded base64 encoding (section 4 of RFC 4648). */
  function Encode(b: seq<Byte>): (s: string)
    ensures |s| % 4 == 0
  {
    Digits(ToSextets(b)) + Padding(|b|)
  }

  predicate IsAsciiWhitespace(c: char) {
    c == '\t' || c == '\n' || c == '\U{000C}' || c == '\r' || c == ' '
  }

  function RemoveAsciiWhitespace(s: string): (r: string)
    ensures |r| <= |s|
    ensures forall k :: 0 <= k < |r| ==> !IsAsciiWhitespace(r[k])
    ensures (forall k :: 0 <= k < |s| ==> !IsAsciiWhitespace(s[k])) ==> r == s
    ensures forall c :: c in s && !IsAsciiWhitespace(c) ==> c in r
  {
    if |s| == 0 then ""
    else if IsAsciiWhitespace(s[0]) then RemoveAsciiWhitespace(s[1..])
    else [s[0]] + RemoveAsciiWhitespace(s[1..])
  }

  /** Drops one or two trailing `=`. */
  function StripPadding(s: string): (r: string)
    ensures forall c :: c in s && c != '=' ==> c in r
  {
    if |s| >= 2 && s[|s| - 2..] == "==" then s[..|s| - 2]
    else if |s| >= 1 && s[|s| - 1] == '=' then s[..|s| - 1]
    else s
  }

  predicate AllAlphabet(s: string) {
    forall k :: 0 <= k < |s| ==> IsAlphabet(s[k])
  }

  /** A binary string: one character per byte, the character code being the
      byte. */
  function BinaryString(b: seq<Byte>): (s: string)
    ensures |s| == |b|
    ensures forall k :: 0 <= k < |s| ==> s[k] as int == b[k]
  {
    seq(|b|, k requires 0 <= k < |b| => b[k] as char)
  }

  /** `atob`: ASCII white space is ignored, one or two trailing `=` are
      dropped from input whose length is a multiple of four, and a length of
      one more than a multiple of four or any other non-alphabet character is
      an InvalidCharacterError. */
  function Atob(input: string): (r: Result<string, DomException>)
    ensures r.Ok? ==> forall k :: 0 <= k < |r.value| ==> r.value[k] as int < 256
  {
    var data := RemoveAsciiWhitespace(input);
    var data := if |data| % 4 == 0 then StripPadding(data) else data;
    if |data| % 4 == 1 || !AllAlphabet(data) then Err(InvalidCharacterError)
    else Ok(BinaryString(FromSextets(Values(data))))
  }

  /** Digits decode back to the digit values that spelled them. */
  lemma ValuesDigits(v: seq<Sextet>)
    ensures Values(Digits(v)) == v
  {
    var d := Digits(v);
    assert forall k :: 0 <= k < |v| ==> Values(d)[k] == ValueOf(d[k]) == v[k];
  }

  /** Stripping the padding of an encoding leaves exactly its digits. */
  lemma StripEncodingPadding(b: seq<Byte>)
    ensures StripPadding(Encode(b)) == Digits(ToSextets(b))
  {
    var d := Digits(ToSextets(b));
    var s := Encode(b);
    assert s == d + Padding(|b|);
    if |b| % 3 == 1 {
      assert s[|s| - 2..] == "==";
      assert s[..|s| - 2] == d;
    } else if |b| % 3 == 2 {
      assert |d| >= 3;
      assert s[|s| - 2] == d[|d| - 1];
      assert IsAlphabet(s[|s| - 2]);
      assert s[..|s| - 1] == d;
    } else {
      assert s == d;
      if |s| >= 1 {
        assert IsAlphabet(s[|s| - 1]);
      }
    }
  }

  /** `atob` decodes what the RFC 4648 encoder produces: the binary string
      of exactly the encoded bytes. */
  lemma AtobEncode(b: seq<Byte>)
    ensures Atob(Encode(b)) == Ok(BinaryString(b))
  {
    var s := Encode(b);
    var v := ToSextets(b);
    assert forall k :: 0 <= k < |s| ==> !IsAsciiWhitespace(s[k]) by {
      forall k | 0 <= k < |s|
        ensures !IsAsciiWhitespace(s[k])
      {
        if k < |Digits(v)| {
          assert s[k] == Digits(v)[k];
        }
      }
    }
    assert RemoveAsciiWhitespace(s) == s;
    StripEncodingPadding(b);
    ValuesDigits(v);
    FromToSextets(b);
  }

  /** A character that is neither a digit, white space nor `=` makes `atob`
      throw, wherever it stands. */
  lemma AtobRejectsForeign(input: string, k: nat)
    requires k < |input| && !IsAlphabet(input[k]) && !IsAsciiWhitespace(input[k]) && input[k] != '='
    ensures Atob(input).Err?
  {
    assert input[k] in input;
  }
}

=== FILE: judge.dfy ===
/** The judge (`judgeTurn` in App.tsx): a rating request for each finished
    turn, the reply read with JavaScript `parseInt`, and the running
    scores and momentum it updates. */
module Judge {
  import opened Outcomes
  import opened Types
  import opened Strings

  // ---------------------------------------------------------------------
  // Decimal numerals and parseInt

  predicate IsDigit(c: char) {
    '0' <= c <= '9'
  }

  function DigitValue(c: char): (d: nat)
    requires IsDigit(c)
    ensures d < 10
  {
    (c as int) - ('0' as int)
  }

  function DigitChar(d: nat): (c: char)
    requires d < 10
    ensures IsDigit(c) && DigitValue(c) == d
  {
    (('0' as int) + d) as char
  }

  predicate AllDigits(s: string) {
    forall k :: 0 <= k < |s| ==> IsDigit(s[k])
  }

  /** The number a string of decimal digits denotes. */
  function DigitsValue(ds: string): nat
    requires AllDigits(ds)
  {
    if |ds| == 0 then 0 else DigitsValue(ds[..|ds| - 1]) * 10 + DigitValue(ds[|ds| - 1])
  }

  /** The shortest decimal numeral of `n`. */
  function Decimal(n: nat): (s: string)
    ensures |s| >= 1 && AllDigits(s)
    ensures |s| > 1 ==> s[0] != '0'
  {
    if n < 10 then [DigitChar(n)] else Decimal(n / 10) + [DigitChar(n % 10)]
  }

  /** A numeral denotes the number it was written for. */
  lemma {:induction false} DecimalValue(n: nat)
    ensures DigitsValue(Decimal(n)) == n
  {
    if n >= 10 {
      var s := Decimal(n);
      assert s[..|s| - 1] == Decimal(n / 10);
      DecimalValue(n / 10);
    }
  }

  /** Length of the run of digits `s` starts with. */
  function DigitRun(s: string): (n: nat)
    ensures n <= |s| && AllDigits(s[..n])
    ensures n < |s| ==> !IsDigit(s[n])
  {
    if |s| == 0 || !IsDigit(s[0]) then 0
    else
      var n := 1 + DigitRun(s[1..]);
      assert forall k :: 1 <= k < n ==> s[..n][k] == s[1..][..n - 1][k - 1];
      n
  }

  /** `parseInt(s, 10)`: leading white space skipped, an optional sign, then
      the longest run of digits; `None` stands for NaN, which is what a
      string without that run parses to. The exact value is kept where
      JavaScript would round numerals beyond 2^53. */
  function ParseInt(s: string): (r: Option<int>)
    ensures r.None? <==> DigitRun(Unsigned(s[LeadingSpace(s)..])) == 0
  {
    var t := s[LeadingSpace(s)..];
    var u := Unsigned(t);
    var n := DigitRun(u);
    if n == 0 then None
    else
      var v := DigitsValue(u[..n]);
      Some(if |t| > 0 && t[0] == '-' then -(v as int) else v)
  }

  /** `t` without its leading sign, if it has one. */
  function Unsigned(t: string): string {
    if |t| > 0 && (t[0] == '-' || t[0] == '+') then t[1..] else t
  }

  lemma {:induction false} DigitRunNumeral(ds: string, rest: string)
    requires AllDigits(ds)
    requires rest == "" || !IsDigit(rest[0])
    ensures DigitRun(ds + rest) == |ds|
  {
    if |ds| > 0 {
      assert (ds + rest)[1..] == ds[1..] + rest;
      DigitRunNumeral(ds[1..], rest);
    }
  }

  /** A numeral followed by anything but another digit parses to its
      number, so "7", "7/10" and "7 points" all read as 7. */
  lemma ParseIntNumeral(n: nat, rest: string)
    requires rest == "" || !IsDigit(rest[0])
    ensures ParseInt(Decimal(n) + rest) == Some(n)
    ensures ParseInt("-" + Decimal(n) + rest) == Some(-(n as int))
  {
    var s := Decimal(n) + rest;
    assert !IsJsSpace(s[0]);
    assert s[LeadingSpace(s)..] == s;
    DigitRunNumeral(Decimal(n), rest);
    assert s[..|Decimal(n)|] == Decimal(n);
    DecimalValue(n);
    var m := "-" + Decimal(n) + rest;
    assert !IsJsSpace(m[0]);
    assert m[LeadingSpace(m)..] == m;
    assert Unsigned(m) == s;
  }

  // ---------------------------------------------------------------------
  // Ratings


  /** The rating request for one turn; it quotes the speaker, the topic and
      the text. */
  function JudgePrompt(text: string, speaker: string, topic: string): (p: string)
    ensures Contains(p, "\"" + text + "\"")
  {
    var head := "Rate argument strength (0-10) by " + speaker + " on \"" + topic + "\": ";
    var quoted := "\"" + text + "\"";
    var p := head + quoted + ". Output NUMBER only.";
    assert OccursAt(p, quoted, |head|);
    p
  }

  /** The rating a judge reply gives: the trimmed text (or "5" when there is
      none) through `parseInt`, with NaN and zero replaced by 5. Nothing
      bounds it to the requested 0-10 range: negative and large ratings
      pass through. */
  function Rating(reply: Option<string>): (r: int)
    ensures r != 0
    ensures reply.None? ==> r == 5
    ensures reply.Some? && IsBlank(reply.value) ==> r == 5
    ensures reply.Some? && !IsBlank(reply.value) && ParseInt(Trim(reply.value)).None? ==> r == 5
    ensures reply.Some? && ParseInt(Trim(reply.value)) == Some(0) ==> r == 5
    ensures reply.Some? && ParseInt(Trim(reply.value)).Some? && ParseInt(Trim(reply.value)).value != 0
      ==> r == ParseInt(Trim(reply.value)).value
  {
    var text := OrElse(if reply.Some? then Some(Trim(reply.value)) else None, "5");
    DigitRunNumeral("5", "");
    assert ParseInt("5") == Some(5) by {
      assert "5"[LeadingSpace("5")..] == "5";
      assert "5"[..1] == "5";
    }
    match ParseInt(text)
    case None => 5
    case Some(v) => if v == 0 then 5 else v
  }

  /** A bare numeral, with any white space around it, rates as its number;
      "0" rates as 5. */
  lemma RatingOfNumeral(pre: string, n: nat, post: string)
    requires IsBlank(pre) && IsBlank(post)
    ensures Rating(Some(pre + Decimal(n) + post)) == if n == 0 then 5 else n
  {
    var d := Decimal(n);
    TrimPadded(pre, d, post);
    ParseIntNumeral(n, "");
    assert d + "" == d;
    assert ParseInt(Trim(pre + d + post)) == Some(n);
  }

  /** A minus sign in front of a non-zero numeral makes the rating
      negative. */
  lemma RatingOfNegative(pre: string, n: nat, post: string)
    requires IsBlank(pre) && IsBlank(post) && n > 0
    ensures Rating(Some(pre + "-" + Decimal(n) + post)) == -(n as int)
  {
    TrimSigned(pre, n, post);
    ParseIntNumeral(n, "");
    assert "-" + Decimal(n) + "" == "-" + Decimal(n);
  }

  lemma TrimSigned(pre: string, n: nat, post: string)
    requires IsBlank(pre) && IsBlank(post)
    ensures Trim(pre + "-" + Decimal(n) + post) == "-" + Decimal(n)
  {
    var d := Decimal(n);
    var m := "-" + d;
    assert pre + "-" + d + post == pre + m + post;
    assert m[|m| - 1] == d[|d| - 1];
    TrimPadded(pre, m, post);
  }

  /** The replies "7" and "10" rate as 7 and 10. */
  lemma RatingSeven()
    ensures Rating(Some("7")) == 7
  {
    assert Decimal(7) == "7";
    RatingOfNumeral("", 7, "");
    assert "" + Decimal(7) + "" == "7";
  }

  lemma RatingTen()
    ensures Rating(Some("10")) == 10
  {
    assert Decimal(1) == "1";
    assert Decimal(10) == Decimal(1) + [DigitChar(0)];
    assert Decimal(10) == "10";
    RatingOfNumeral("", 10, "");
    assert "" + Decimal(10) + "" == "10";
  }

  // ---------------------------------------------------------------------
  // Scores

  /** The meter's inputs: the momentum, clamped to [-100, 100], and the two
      cumulative scores. */
  datatype Scores = Scores(momentum: int, scoreA: int, scoreB: int)

  const ZeroScores := Scores(0, 0, 0)

  function Clamp(x: int): (r: int)
    ensures -100 <= r <= 100
    ensures -100 <= x <= 100 ==> r == x
    ensures x < -100 ==> r == -100
    ensures x > 100 ==> r == 100
  {
    if x < -100 then -100 else if x > 100 then 100 else x
  }

  /** A rating credited to `speaker`: the turn is A's exactly when the
      speaker is A's current name, so with equal names every turn counts
      for A; A's ratings pull the momentum down by three per point, the
      other's push it up. */
  function Credit(s: Scores, rating: int, speaker: string, nameA: string): (t: Scores)
    ensures -100 <= t.momentum <= 100
    ensures speaker == nameA ==> t.scoreA == s.scoreA + rating && t.scoreB == s.scoreB
    ensures speaker != nameA ==> t.scoreB == s.scoreB + rating && t.scoreA == s.scoreA
    ensures t.momentum == Clamp(if speaker == nameA then s.momentum - 3 * rating else s.momentum + 3 * rating)
  {
    if speaker == nameA then Scores(Clamp(s.momentum - rating * 3), s.scoreA + rating, s.scoreB)
    else Scores(Clamp(s.momentum + rating * 3), s.scoreA, s.scoreB + rating)
  }

  /** How a judge request ended: the reply's text (which may be missing),
      or the error the call rejected with. */
  type JudgeOutcome = Result<Option<string>, JsError>

  /** `judgeTurn` resolving: a reply credits its rating; a failure leaves
      the scores alone and is logged unless its message mentions 429. It
      never rejects. */
  function JudgeTurn(s: Scores, outcome: JudgeOutcome, speaker: string, nameA: string)
    : (r: (Scores, bool))
    ensures outcome.Ok? ==> r.0 == Credit(s, Rating(outcome.value), speaker, nameA) && !r.1
    ensures outcome.Err? ==> r.0 == s
    ensures outcome.Err? ==> (r.1 <==> outcome.error.message.None? || !Contains(outcome.error.message.value, "429"))
  {
    match outcome
    case Ok(reply) => (Credit(s, Rating(reply), speaker, nameA), false)
    case Err(e) => (s, !(e.message.Some? && Contains(e.message.value, "429")))
  }

  /** One resolved judge request: whose turn it was and how it ended. */
  datatype Verdict = Verdict(speaker: string, outcome: JudgeOutcome)

  /** The scores after the verdicts have landed, in the order given. */
  function ApplyAll(s: Scores, verdicts: seq<Verdict>, nameA: string): Scores
    decreases |verdicts|
  {
    if |verdicts| == 0 then s
    else ApplyAll(JudgeTurn(s, verdicts[0].outcome, verdicts[0].speaker, nameA).0, verdicts[1..], nameA)
  }

  /** The rating a verdict credits to A, and to B; 0 when it failed. */
  function CreditA(v: Verdict, nameA: string): int {
    if v.outcome.Ok? && v.speaker == nameA then Rating(v.outcome.value) else 0
  }
  function CreditB(v: Verdict, nameA: string): int {
    if v.outcome.Ok? && v.speaker != nameA then Rating(v.outcome.value) else 0
  }

  function SumA(verdicts: seq<Verdict>, nameA: string): int {
    if |verdicts| == 0 then 0 else CreditA(verdicts[0], nameA) + SumA(verdicts[1..], nameA)
  }
  function SumB(verdicts: seq<Verdict>, nameA: string): int {
    if |verdicts| == 0 then 0 else CreditB(verdicts[0], nameA) + SumB(verdicts[1..], nameA)
  }

  /** Each cumulative score is its start value plus the ratings of the
      successful verdicts on that side, and the momentum stays in range,
      whatever order the verdicts land in. */
  lemma {:induction false} ApplyAllTotals(s: Scores, verdicts: seq<Verdict>, nameA: string)
    requires -100 <= s.momentum <= 100
    ensures ApplyAll(s, verdicts, nameA).scoreA == s.scoreA + SumA(verdicts, nameA)
    ensures ApplyAll(s, verdicts, nameA).scoreB == s.scoreB + SumB(verdicts, nameA)
    ensures -100 <= ApplyAll(s, verdicts, nameA).momentum <= 100
    decreases |verdicts|
  {
    if |verdicts| > 0 {
      ApplyAllTotals(JudgeTurn(s, verdicts[0].outcome, verdicts[0].speaker, nameA).0, verdicts[1..], nameA);
    }
  }

  /** When every successful rating is positive, no score goes down as the
      verdicts land, and neither side's credited sum is negative. */
  lemma {:induction false} PositiveRatingsNeverLower(s: Scores, verdicts: seq<Verdict>, nameA: string)
    requires forall k :: 0 <= k < |verdicts| && verdicts[k].outcome.Ok? ==> Rating(verdicts[k].outcome.value) > 0
    ensures ApplyAll(s, verdicts, nameA).scoreA >= s.scoreA && ApplyAll(s, verdicts, nameA).scoreB >= s.scoreB
    ensures SumA(verdicts, nameA) >= 0 && SumB(verdicts, nameA) >= 0
    decreases |verdicts|
  {
    if |verdicts| > 0 {
      var s1 := JudgeTurn(s, verdicts[0].outcome, verdicts[0].speaker, nameA).0;
      assert s1.scoreA >= s.scoreA && s1.scoreB >= s.scoreB;
      PositiveRatingsNeverLower(s1, verdicts[1..], nameA);
    }
  }

  /** Two sevens, first for A and then for B, move the momentum to -21 and
      back to 0. */
  lemma SevenEach(nameA: string, nameB: string)
    requires nameA != nameB
    ensures var s1 := JudgeTurn(ZeroScores, Ok(Some("7")), nameA, nameA).0;
      && s1 == Scores(-21, 7, 0)
      && JudgeTurn(s1, Ok(Some("7")), nameB, nameA).0 == Scores(0, 7, 7)
  {
    RatingSeven();
    var s1 := JudgeTurn(ZeroScores, Ok(Some("7")), nameA, nameA).0;
    assert s1 == Credit(ZeroScores, 7, nameA, nameA);
  }

  /** The momentum depends on the order verdicts land in: from 90, A's ten
      then B's ten end at 90, B's ten then A's ten at 70. */
  lemma MomentumDependsOnOrder(nameA: string, nameB: string)
    requires nameA != nameB
    ensures ApplyAll(Scores(90, 0, 0), [Verdict(nameA, Ok(Some("10"))), Verdict(nameB, Ok(Some("10")))], nameA).momentum == 90
    ensures ApplyAll(Scores(90, 0, 0), [Verdict(nameB, Ok(Some("10"))), Verdict(nameA, Ok(Some("10")))], nameA).momentum == 70
  {
    RatingTen();
    var a := Verdict(nameA, Ok(Some("10")));
    var b := Verdict(nameB, Ok(Some("10")));
    var s0 := Scores(90, 0, 0);
    assert JudgeTurn(s0, a.outcome, nameA, nameA).0 == Scores(60, 10, 0);
    assert JudgeTurn(Scores(60, 10, 0), b.outcome, nameB, nameA).0 == Scores(90, 10, 10);
    assert [a, b][1..] == [b];
    assert ApplyAll(s0, [a, b], nameA) == ApplyAll(Scores(60, 10, 0), [b], nameA);
    assert ApplyAll(Scores(60, 10, 0), [b], nameA) == ApplyAll(Scores(90, 10, 10), [], nameA);
    assert JudgeTurn(s0, b.outcome, nameB, nameA).0 == Scores(100, 0, 10);
    assert JudgeTurn(Scores(100, 0, 10), a.outcome, nameA, nameA).0 == Scores(70, 10, 10);
    assert [b, a][1..] == [a];
    assert ApplyAll(s0, [b, a], nameA) == ApplyAll(Scores(100, 0, 10), [a], nameA);
    assert ApplyAll(Scores(100, 0, 10), [a], nameA) == ApplyAll(Scores(70, 10, 10), [], nameA);
  }

  /** With both debaters under one name, B's turns are credited to A. */
  lemma SharedNameCreditsA(s: Scores, reply: Option<string>, name: string)
    ensures JudgeTurn(s, Ok(reply), name, name).0.scoreB == s.scoreB
  {
  }
}

=== FILE: meter.dfy ===
/** The debate meter: how the two cumulative judge scores become the split
    bar, the leader line and the percentage labels. Percentages are reals;
    the scores are the integers the judge keeps. */
module Meter {
  import opened Outcomes

  /** What the meter is given. `momentum` is accepted and never read. */
  datatype MeterProps = MeterProps(
    momentum: int,
    colourA: string, colourB: string,
    nameA: string, nameB: string,
    scoreA: int, scoreB: int)

  /** What the meter shows: the two bar widths, the leader and its colour,
      whether the trophy is lit, and for each side the rounded label (if
      shown) and whether its flame is filled. */
  datatype MeterView = MeterView(
    percentA: real, percentB: real,
    leader: string, leaderColour: string, trophyLit: bool,
    labelA: Option<int>, labelB: Option<int>,
    flameA: bool, flameB: bool)

  const TieLeader := "Tie"
  const TieColour := "#94a3b8"
  const LabelThreshold: real := 15.0
  const FlameThreshold: real := 50.0

  /** The two shares of the bar: half each while no point has been scored in
      total, otherwise each score's fraction of the total, in percent. */
  function Shares(a: int, b: int): (r: (real, real))
    ensures a + b == 0 ==> r == (50.0, 50.0)
    ensures a + b != 0 ==> r.0 * (a + b) as real == 100.0 * a as real && r.1 * (a + b) as real == 100.0 * b as real
    ensures r.0 + r.1 == 100.0
  {
    var total := a + b;
    var safeTotal: real := if total == 0 then 1.0 else total as real;
    if total == 0 then (50.0, 50.0)
    else
      var pa := a as real / safeTotal * 100.0;
      var pb := b as real / safeTotal * 100.0;
      SharesSum(a as real, b as real, safeTotal);
      (pa, pb)
  }

  /** Shares of a non-zero total add up to the whole. */
  lemma SharesSum(a: real, b: real, t: real)
    requires t != 0.0 && a + b == t
    ensures a / t * 100.0 + b / t * 100.0 == 100.0
    ensures a / t * 100.0 * t == 100.0 * a && b / t * 100.0 * t == 100.0 * b
  {
    assert a / t + b / t == (a + b) / t;
  }

  /** With scores that never go below zero each share lies between 0 and
      100, and the larger score has the larger share. */
  lemma SharesBounded(a: int, b: int)
    requires a >= 0 && b >= 0
    ensures var (pa, pb) := Shares(a, b);
      && 0.0 <= pa <= 100.0 && 0.0 <= pb <= 100.0
      && (pa < pb <==> a < b) && (pa == pb <==> a == b)
  {
    var (pa, pb) := Shares(a, b);
    if a + b != 0 {
      var t := (a + b) as real;
      assert t > 0.0;
      assert pa * t == 100.0 * a as real;
      assert pb * t == 100.0 * b as real;
      ShareOrder(pa, pb, t);
      ScaledOrder(a, b);
      assert pa < pb <==> 100.0 * a as real < 100.0 * b as real;
      assert pa == pb <==> 100.0 * a as real == 100.0 * b as real;
      assert pa >= 0.0 by { NonNegativeFactor(pa, t); }
      assert pb >= 0.0 by { NonNegativeFactor(pb, t); }
    }
  }

  /** Scaling by 100 keeps the order of two integers. */
  lemma ScaledOrder(a: int, b: int)
    ensures 100.0 * a as real < 100.0 * b as real <==> a < b
    ensures 100.0 * a as real == 100.0 * b as real <==> a == b
  {
  }

  lemma NonNegativeFactor(p: real, t: real)
    requires t > 0.0 && p * t >= 0.0
    ensures p >= 0.0
  {
  }

  lemma ShareOrder(pa: real, pb: real, t: real)
    requires t > 0.0
    ensures pa < pb <==> pa * t < pb * t
    ensures pa == pb <==> pa * t == pb * t
  {
    if pa < pb {
      assert (pb - pa) * t > 0.0;
    } else if pb < pa {
      assert (pa - pb) * t > 0.0;
    }
  }

  /** The leader line: A's name when A is ahead, B's name when B is ahead,
      "Tie" otherwise. */
  function Leader(a: int, b: int, nameA: string, nameB: string): (l: string)
    ensures l == nameA || l == nameB || l == TieLeader
    ensures a > b ==> l == nameA
    ensures b > a ==> l == nameB
    ensures a == b ==> l == TieLeader
  {
    if a > b then nameA else if b > a then nameB else TieLeader
  }

  /** The colour of the leader's name, found by comparing the leader text
      with the names: A's colour first, then B's, then grey. */
  function LeaderColour(leader: string, nameA: string, nameB: string, colourA: string, colourB: string): (c: string)
    ensures c == colourA || c == colourB || c == TieColour
    ensures c == TieColour ==> (leader != nameA && leader != nameB) || colourA == TieColour || colourB == TieColour
    ensures leader == nameA ==> c == colourA
    ensures leader != nameA && leader == nameB ==> c == colourB
    ensures leader != nameA && leader != nameB ==> c == TieColour
  {
    if leader == nameA then colourA else if leader == nameB then colourB else TieColour
  }

  /** Math.round: the nearest integer, halves rounded up. */
  function Round(x: real): (n: int)
    ensures x - 0.5 < n as real <= x + 0.5
  {
    (x + 0.5).Floor
  }

  /** A share's label: its rounded percentage, shown only above 15. */
  function Label(share: real): (l: Option<int>)
    ensures l.Some? <==> share > LabelThreshold
    ensures l.Some? ==> l.value >= 15 && share - 0.5 < l.value as real <= share + 0.5
  {
    if share > LabelThreshold then Some(Round(share)) else None
  }

  /** A share's flame is filled only above half. */
  function Flame(share: real): (f: bool)
    ensures f <==> share > 50.0
  {
    share > FlameThreshold
  }

  /** The whole meter. */
  function View(p: MeterProps): (v: MeterView)
    ensures v.percentA + v.percentB == 100.0
    ensures v.trophyLit <==> v.leader != TieLeader
    ensures v.labelA.Some? <==> v.percentA > 15.0
    ensures v.labelB.Some? <==> v.percentB > 15.0
    ensures v.flameA ==> v.labelA.Some?
    ensures v.flameB ==> v.labelB.Some?
  {
    var (pa, pb) := Shares(p.scoreA, p.scoreB);
    var leader := Leader(p.scoreA, p.scoreB, p.nameA, p.nameB);
    MeterView(pa, pb, leader, LeaderColour(leader, p.nameA, p.nameB, p.colourA, p.colourB),
              leader != TieLeader, Label(pa), Label(pb), Flame(pa), Flame(pb))
  }

  /** The meter depends only on the scores, names and colours: the
      momentum value never changes what is shown. */
  lemma {:induction false} MomentumIgnored(p: MeterProps, momentum: int)
    ensures View(p.(momentum := momentum)) == View(p)
  {
    var q := p.(momentum := momentum);
    assert (q.scoreA, q.scoreB, q.nameA, q.nameB, q.colourA, q.colourB)
        == (p.scoreA, p.scoreB, p.nameA, p.nameB, p.colourA, p.colourB);
  }

  /** Some label is always shown and at most one flame is filled: the
      shares add up to 100, so one is at least 50 and both cannot exceed
      it. */
  lemma LabelsAndFlames(p: MeterProps)
    ensures var v := View(p);
      && (v.labelA.Some? || v.labelB.Some?)
      && !(v.flameA && v.flameB)
  {
    var v := View(p);
    assert v.percentA + v.percentB == 100.0;
  }

  /** The two rounded labels, when both show, add up to 99, 100 or 101. */
  lemma RoundedLabelsNearHundred(p: MeterProps)
    requires View(p).labelA.Some? && View(p).labelB.Some?
    ensures 99 <= View(p).labelA.value + View(p).labelB.value <= 101
  {
    var v := View(p);
    assert v.percentA + v.percentB == 100.0;
  }

  /** With distinct names, neither of them "Tie", the leader line and the
      trophy tell exactly who is ahead, and the leader's name shows in
      that agent's colour. */
  lemma LeaderTellsWhoIsAhead(p: MeterProps)
    requires p.nameA != p.nameB && p.nameA != TieLeader && p.nameB != TieLeader
    ensures var v := View(p);
      && (v.leader == p.nameA <==> p.scoreA > p.scoreB)
      && (v.leader == p.nameB <==> p.scoreB > p.scoreA)
      && (v.trophyLit <==> p.scoreA != p.scoreB)
      && (v.leaderColour == (if p.scoreA > p.scoreB then p.colourA
                             else if p.scoreB > p.scoreA then p.colourB
                             else TieColour))
  {
  }

  /** Two agents with the same name: when B is ahead the name shows in A's
      colour, because the colour lookup tries A's name first. */
  lemma SharedNameShowsColourA(p: MeterProps)
    requires p.nameA == p.nameB && p.scoreB > p.scoreA
    ensures View(p).leader == p.nameB
    ensures View(p).leaderColour == p.colourA
  {
  }

  /** An agent called "Tie" that is ahead leaves the trophy dark, and on an
      actual tie the text "Tie" is shown in that agent's colour. */
  lemma AgentNamedTie(p: MeterProps)
    requires p.nameA == TieLeader
    ensures p.scoreA > p.scoreB ==> !View(p).trophyLit
    ensures p.scoreA == p.scoreB ==> View(p).leaderColour == p.colourA
  {
  }

  /** Scores driven below zero by negative ratings can push a share past
      100 and the other below 0. */
  lemma NegativeScoreOverflowsBar()
    ensures Shares(3, -1) == (150.0, -50.0)
  {
    var (pa, pb) := Shares(3, -1);
    assert pa * 2.0 == 300.0;
    assert pb * 2.0 == -100.0;
  }
}

=== FILE: orchestrator.dfy ===
/** The debate loop (`startConversation` and `stopConversation` in
    App.tsx): A and B take turns, each turn generating a reply, appending
    it to the transcript, sending it to the judge and speaking it, until
    the user stops the session or a generation fails. What happens at each
    await (the text produced, whether speech succeeds, when a stop click
    lands) is given as a script of turns. */
module Orchestrator {
  import opened Outcomes
  import opened Types
  import opened Strings
  import Agent
  import Judge

  datatype Side = SideA | SideB

  /** The side whose turn the `k`-th turn of a session is: A first. */
  function SideAt(k: nat): Side {
    if k % 2 == 0 then SideA else SideB
  }

  /** The two debaters' current names. */
  datatype Names = Names(nameA: string, nameB: string)

  function NameOf(side: Side, names: Names): string {
    if side == SideA then names.nameA else names.nameB
  }

  /** Where, if anywhere, a click on Stop lands during a turn: while the
      text is being generated, while it is being spoken, or during the pause
      after the turn. */
  datatype StopPoint = NoStop | WhileGenerating | WhileSpeaking | WhileWaiting

  /** What one turn's awaits produce: the text `generateText` resolves to or
      the error it rethrows, the label ticks seen meanwhile, the clock
      reading used for the entry's id and timestamp, whether speech
      succeeds, and where a stop lands. */
  datatype TurnScript = TurnScript(generated: Result<string, JsError>, ticks: nat, clock: nat,
                                   speechOk: bool, stop: StopPoint)

  /** A rating request sent to the judge, and a text sent to speech. */
  datatype JudgeRequest = JudgeRequest(text: string, speaker: string)
  datatype Speech = Speech(side: Side, text: string)

  /** The session state the loop reads and writes: the loop flag
      (`isLoopRunning`), whether the session shows as active, the error
      banner, whether settings were opened, the transcript, the scores,
      both agents, and the judge and speech requests issued. */
  datatype Session = Session(running: bool, active: bool, error: Option<string>, settingsOpen: bool,
                             messages: seq<ChatMessage>, scores: Judge.Scores,
                             agentA: Agent.AgentState, agentB: Agent.AgentState,
                             judged: seq<JudgeRequest>, spoken: seq<Speech>)

  const Idle := Session(false, false, None, false, [], Judge.ZeroScores, Agent.Initial, Agent.Initial, [], [])

  function AgentOf(s: Session, side: Side): Agent.AgentState {
    if side == SideA then s.agentA else s.agentB
  }

  function WithAgent(s: Session, side: Side, a: Agent.AgentState): (t: Session)
    ensures AgentOf(t, side) == a
    ensures side == SideA ==> t.agentB == s.agentB
    ensures side == SideB ==> t.agentA == s.agentA
  {
    if side == SideA then s.(agentA := a) else s.(agentB := a)
  }

  /** `stopConversation`: the flag cleared, the session inactive, both
      agents stopped. */
  function StopSession(s: Session): (t: Session)
    ensures !t.running && !t.active
    ensures t.agentA.status == AgentStatus.Idle && t.agentB.status == AgentStatus.Idle
    ensures t.messages == s.messages && t.judged == s.judged && t.spoken == s.spoken && t.error == s.error
  {
    s.(running := false, active := false, agentA := Agent.Stop(s.agentA), agentB := Agent.Stop(s.agentB))
  }

  /** A stop click landing now; the button is only there while the session
      is active. */
  function StopIf(s: Session, click: bool): (t: Session)
    ensures t.messages == s.messages && t.judged == s.judged && t.spoken == s.spoken && t.error == s.error
    ensures t.running == (s.running && !click)
    ensures s.active == s.running ==> t.active == t.running
  {
    if click && s.running then StopSession(s) else s
  }

  /** The message shown when a generation error ends the loop. */
  function LoopErrorMessage(e: JsError): (m: string)
    ensures e.message.Some? && e.message.value != "" ==> m == "Error: " + e.message.value
    ensures e.message.None? || e.message.value == "" ==> m == "Error: Unknown error"
  {
    "Error: " + OrElse(e.message, "Unknown error")
  }

  /** The message shown when the audio device cannot be set up; a missing
      message reads "undefined". */
  function AudioErrorMessage(message: Option<string>): string {
    "Audio Error: " + message.GetOr("undefined")
  }

  /** The generation step of a turn: the agent thinks, a stop may land,
      and the agent's state takes the outcome. */
  function Generate(s: Session, side: Side, t: TurnScript): (r: Session)
    ensures r.messages == s.messages && r.judged == s.judged && r.spoken == s.spoken && r.error == s.error
    ensures r.running == (s.running && t.stop != WhileGenerating)
    ensures s.active == s.running ==> r.active == r.running
  {
    var thinking := Agent.Tick(Agent.BeginGenerate(AgentOf(s, side)), t.ticks);
    var s1 := StopIf(WithAgent(s, side, thinking), t.stop == WhileGenerating);
    WithAgent(s1, side, Agent.EndGenerate(AgentOf(s1, side), t.generated))
  }

  /** The speech step of a turn with a non-empty text: Speaking, a stop may
      land, then Idle or Error as the speech ends. */
  function Speak(s: Session, side: Side, text: string, t: TurnScript): (r: Session)
    ensures r.messages == s.messages && r.judged == s.judged && r.error == s.error
    ensures r.spoken == s.spoken + [Speech(side, text)]
    ensures r.running == (s.running && t.stop != WhileSpeaking)
    ensures s.active == s.running ==> r.active == r.running
  {
    var speaking := WithAgent(s, side, AgentOf(s, side).(status := AgentStatus.Speaking));
    var s1 := StopIf(speaking, t.stop == WhileSpeaking);
    var finished := AgentOf(s1, side).(status := if t.speechOk then AgentStatus.Idle else AgentStatus.Error);
    WithAgent(s1, side, finished).(spoken := s1.spoken + [Speech(side, text)])
  }

  /** The rest of a turn whose text arrived: the entry is appended and sent
      to the judge, spoken if non-empty, and the pause follows. */
  function Deliver(s: Session, side: Side, name: string, text: string, t: TurnScript): (r: Session)
    ensures r.messages == s.messages + [ChatMessage(Judge.Decimal(t.clock), name, text, t.clock)]
    ensures r.judged == s.judged + [JudgeRequest(text, name)]
    ensures r.spoken == s.spoken + (if text != "" then [Speech(side, text)] else [])
    ensures r.running == (s.running && t.stop != WhileSpeaking && t.stop != WhileWaiting)
    ensures s.active == s.running ==> r.active == r.running
  {
    var entry := ChatMessage(Judge.Decimal(t.clock), name, text, t.clock);
    var s1 := s.(messages := s.messages + [entry], judged := s.judged + [JudgeRequest(text, name)]);
    var s2 := if text == "" then s1 else Speak(s1, side, text, t);
    StopIf(s2, t.stop == WhileWaiting || t.stop == WhileSpeaking)
  }

  /** One turn of the loop, entered with the flag set. */
  function Turn(s: Session, k: nat, names: Names, t: TurnScript): (r: Session)
    requires s.running
    ensures t.generated.Err? ==> r.messages == s.messages && r.judged == s.judged && r.spoken == s.spoken
    ensures t.generated.Ok? ==> r.messages == s.messages + [ChatMessage(Judge.Decimal(t.clock), NameOf(SideAt(k), names),
                                                                        t.generated.value, t.clock)]
    ensures t.generated.Ok? ==> r.judged == s.judged + [JudgeRequest(t.generated.value, NameOf(SideAt(k), names))]
    ensures t.generated.Ok? ==> (r.spoken == s.spoken
      + (if t.generated.value != "" then [Speech(SideAt(k), t.generated.value)] else []))
    ensures r.running <==> t.stop == NoStop && t.generated.Ok?
    ensures s.active ==> r.active == r.running
  {
    var side := SideAt(k);
    var s1 := Generate(s, side, t);
    match t.generated
    case Err(e) =>
      if s1.running then StopSession(s1.(error := Some(LoopErrorMessage(e)))) else s1
    case Ok(text) => Deliver(s1, side, NameOf(side, names), text, t)
  }

  /** A turn after which the loop carries on: no stop click and a text. */
  predicate Continues(t: TurnScript) {
    t.stop == NoStop && t.generated.Ok?
  }

  /** The loop from its `k`-th turn on: it checks the flag before every
      turn and ends when the flag is down or the script runs out. */
  function Run(s: Session, names: Names, script: seq<TurnScript>, k: nat): (r: Session)
    decreases |script|
    ensures !s.running ==> r == s
    ensures Counted(s, k) ==> Counted(r, k + |script|)
    ensures r.running ==> forall i :: 0 <= i < |script| ==> Continues(script[i])
    ensures Counted(s, k) ==> forall j :: 0 <= j < |script| && !Continues(script[j]) ==> |r.messages| <= k + j + 1
  {
    if |script| == 0 || !s.running then s
    else Run(Turn(s, k, names, script[0]), names, script[1..], k + 1)
  }

  /** `startConversation`: a blank topic only opens the settings; otherwise
      the error is cleared and the scores reset, and unless the audio
      device fails the transcript is cleared and the loop starts. */
  datatype AudioSetup = AudioReady | AudioFailed(message: Option<string>)

  function Start(s: Session, topic: string, audio: AudioSetup): (t: Session)
    requires !s.running
    ensures IsBlank(topic) ==> t == s.(settingsOpen := true)
    ensures !IsBlank(topic) ==> t.scores == Judge.ZeroScores
    ensures !IsBlank(topic) && audio.AudioFailed? ==> !t.running && t.error == Some(AudioErrorMessage(audio.message))
    ensures !IsBlank(topic) && audio.AudioReady? ==> t.running && t.active && t.error.None? && t.messages == []
  {
    if Trim(topic) == "" then s.(settingsOpen := true)
    else
      var cleared := s.(error := None, scores := Judge.ZeroScores);
      match audio
      case AudioFailed(m) => cleared.(error := Some(AudioErrorMessage(m)))
      case AudioReady => cleared.(active := true, running := true, messages := [], judged := [], spoken := [])
  }

  /** A whole session: started from the idle state, then the loop. */
  function Conversation(topic: string, audio: AudioSetup, names: Names, script: seq<TurnScript>): Session {
    var s := Start(Idle, topic, audio);
    if s.running then Run(s, names, script, 0) else s
  }

  // ---------------------------------------------------------------------
  // Properties of the loop

  /** Entry `i` is by A when `i` is even and by B when it is odd. */
  predicate Alternates(messages: seq<ChatMessage>, names: Names) {
    forall i :: 0 <= i < |messages| ==> messages[i].sender == NameOf(SideAt(i), names)
  }

  /** Every entry was sent to the judge, in order, with its speaker. */
  predicate Mirrors(judged: seq<JudgeRequest>, messages: seq<ChatMessage>) {
    |judged| == |messages| && forall i :: 0 <= i < |messages| ==> judged[i] == JudgeRequest(messages[i].text, messages[i].sender)
  }

  /** The speech requests the entries make: each non-empty text, in order,
      by the side whose turn it was. */
  function Speeches(messages: seq<ChatMessage>): seq<Speech>
    decreases |messages|
  {
    if |messages| == 0 then []
    else
      var last := messages[|messages| - 1];
      Speeches(messages[..|messages| - 1])
        + (if last.text != "" then [Speech(SideAt(|messages| - 1), last.text)] else [])
  }

  /** How many entries a session has after `k` turns: one per turn while
      the loop runs, at most one per turn once it has ended. */
  predicate Counted(s: Session, k: nat) {
    && |s.messages| <= k
    && (s.running ==> |s.messages| == k)
    && s.active == s.running
  }

  /** What the transcript and the request logs look like. */
  predicate Logged(s: Session, names: Names) {
    && Alternates(s.messages, names)
    && Mirrors(s.judged, s.messages)
    && s.spoken == Speeches(s.messages)
  }

  predicate Inv(s: Session, names: Names, k: nat) {
    Counted(s, k) && Logged(s, names)
  }

  lemma TurnCounted(s: Session, names: Names, k: nat, t: TurnScript)
    requires s.running && Counted(s, k)
    ensures Counted(Turn(s, k, names, t), k + 1)
  {
  }

  lemma TurnLogged(s: Session, names: Names, k: nat, t: TurnScript)
    requires s.running && |s.messages| == k && Logged(s, names)
    ensures Logged(Turn(s, k, names, t), names)
  {
    var r := Turn(s, k, names, t);
    if t.generated.Ok? {
      var m := ChatMessage(Judge.Decimal(t.clock), NameOf(SideAt(k), names), t.generated.value, t.clock);
      AppendLogged(s, r, names, m);
    }
  }

  /** Appending the `k`-th entry, by the side whose turn it is, together
      with its judge request and its speech if non-empty, keeps the logs in
      shape. */
  lemma AppendLogged(s: Session, r: Session, names: Names, m: ChatMessage)
    requires Logged(s, names)
    requires m.sender == NameOf(SideAt(|s.messages|), names)
    requires r.messages == s.messages + [m]
    requires r.judged == s.judged + [JudgeRequest(m.text, m.sender)]
    requires r.spoken == s.spoken + (if m.text != "" then [Speech(SideAt(|s.messages|), m.text)] else [])
    ensures Logged(r, names)
  {
    assert r.messages[..|r.messages| - 1] == s.messages;
  }

  lemma TurnKeepsInv(s: Session, names: Names, k: nat, t: TurnScript)
    requires s.running && Inv(s, names, k)
    ensures Inv(Turn(s, k, names, t), names, k + 1)
  {
    TurnCounted(s, names, k, t);
    TurnLogged(s, names, k, t);
  }

  lemma {:induction false} RunKeepsInv(s: Session, names: Names, script: seq<TurnScript>, k: nat)
    requires Inv(s, names, k)
    ensures Inv(Run(s, names, script, k), names, k + |script|)
    decreases |script|
  {
    if |script| > 0 && s.running {
      TurnKeepsInv(s, names, k, script[0]);
      RunKeepsInv(Turn(s, k, names, script[0]), names, script[1..], k + 1);
    }
  }

  /** In every session the transcript alternates A, B, A, ..., every entry
      went to the judge, exactly the non-empty entries were spoken, and the
      session shows as active exactly while the loop flag is up. */
  lemma ConversationInvariants(topic: string, audio: AudioSetup, names: Names, script: seq<TurnScript>)
    ensures var r := Conversation(topic, audio, names, script);
      && Alternates(r.messages, names)
      && Mirrors(r.judged, r.messages)
      && r.spoken == Speeches(r.messages)
      && (!IsBlank(topic) ==> r.active == r.running)
  {
    var s := Start(Idle, topic, audio);
    if s.running {
      RunKeepsInv(s, names, script, 0);
    }
  }

  /** The loop takes its first turn and carries on from there. */
  lemma RunStep(s: Session, names: Names, script: seq<TurnScript>, k: nat) returns (s1: Session)
    requires s.running && Counted(s, k) && |script| > 0
    ensures Counted(s1, k + 1)
    ensures Run(s, names, script, k) == Run(s1, names, script[1..], k + 1)
    ensures s1.running <==> Continues(script[0])
  {
    TurnCounted(s, names, k, script[0]);
    s1 := Turn(s, k, names, script[0]);
  }

  /** Without stops or failures the loop is still running after the
      script, with one entry per turn. */
  lemma {:induction false} RunWithoutInterruption(s: Session, names: Names, script: seq<TurnScript>, k: nat)
    requires s.running && Counted(s, k)
    requires forall i :: 0 <= i < |script| ==> Continues(script[i])
    ensures Run(s, names, script, k).running
    ensures |Run(s, names, script, k).messages| == k + |script|
    decreases |script|
  {
    if |script| > 0 {
      var s1 := RunStep(s, names, script, k);
      RunWithoutInterruption(s1, names, script[1..], k + 1);
    }
  }

  /** A generation failure while the loop runs shows "Error: <message>"
      (or "Error: Unknown error") and stops the session, which leaves both
      agents Idle: the failing agent's Error status does not survive. */
  lemma FailureStopsSession(s: Session, k: nat, names: Names, t: TurnScript)
    requires s.running && t.generated.Err? && t.stop != WhileGenerating
    ensures var r := Turn(s, k, names, t);
      && r.error == Some(LoopErrorMessage(t.generated.error))
      && !r.running && !r.active
      && r.agentA.status == AgentStatus.Idle && r.agentB.status == AgentStatus.Idle
  {
  }

  /** A generation that fails after Stop was clicked shows no error and
      leaves the failing agent in Error. */
  lemma FailureAfterStopIsSilent(s: Session, k: nat, names: Names, t: TurnScript)
    requires s.running && t.generated.Err? && t.stop == WhileGenerating
    ensures var r := Turn(s, k, names, t);
      && r.error == s.error
      && AgentOf(r, SideAt(k)).status == AgentStatus.Error
  {
  }

  /** Stopping while A is still generating does not stop A's turn: A's
      text is appended and, if non-empty, spoken; B never takes a turn.
      Both agents end Idle unless A's speech fails after the stop, which
      leaves A in Error. */
  lemma StopDuringFirstGeneration(topic: string, names: Names, script: seq<TurnScript>)
    requires !IsBlank(topic) && |script| >= 1
    requires script[0].stop == WhileGenerating && script[0].generated.Ok?
    ensures var r := Conversation(topic, AudioReady, names, script);
      && !r.running
      && |r.messages| == 1 && r.messages[0].sender == names.nameA
      && r.messages[0].text == script[0].generated.value
      && (script[0].generated.value != "" ==> r.spoken == [Speech(SideA, script[0].generated.value)])
      && r.agentB.status == AgentStatus.Idle
      && (script[0].speechOk || script[0].generated.value == "" ==> r.agentA.status == AgentStatus.Idle)
      && (!script[0].speechOk && script[0].generated.value != "" ==> r.agentA.status == AgentStatus.Error)
  {
    var s := Start(Idle, topic, AudioReady);
    var s1 := Turn(s, 0, names, script[0]);
    assert Run(s1, names, script[1..], 1) == s1;
  }

  /** A blank topic starts nothing and only opens the settings. */
  lemma BlankTopicStartsNothing(topic: string, audio: AudioSetup, names: Names, script: seq<TurnScript>)
    requires IsBlank(topic)
    ensures Conversation(topic, audio, names, script) == Idle.(settingsOpen := true)
  {
  }
}

=== FILE: outcomes.dfy ===
/** Option and Result: the absent value and the thrown exception of the
    TypeScript source, made explicit. */
module Outcomes {

  /** A value that may be missing (`undefined`, an optional field). */
  datatype Option<+T> = None | Some(value: T) {

    /** Returns the value, or `default` when it is missing. */
    function GetOr(default: T): T {
      match this
      case Some(v) => v
      case None => default
    }
  }

  /** A computation that either returns a value or throws an error. */
  datatype Result<+T, +E> = Ok(value: T) | Err(error: E) {

    predicate IsFailure() {
      Err?
    }

    function PropagateFailure<U>(): Result<U, E>
      requires Err?
    {
      Err(error)
    }

    function Extract(): T
      requires Ok?
    {
      value
    }
  }
}

=== FILE: persona.dfy ===
/** The debaters' personas (App.tsx): the two base configurations, the
    mood table, and the composition of a debater's system instruction from
    the base text, both current names and the chosen mood. */
module Persona {
  import opened Outcomes
  import opened Types
  import opened Strings

  // ---------------------------------------------------------------------
  // String.prototype.replace with a string pattern

  /** The replacement template expanded as GetSubstitution does for a
      string pattern (section 22.1.3.19.1 of ECMA-262): "$$" is a dollar
      sign, "$&" the matched text, "$`" the text before the match, "$'" the
      text after it; with no captures, "$1" or "$<" stay as written, as
      does any other dollar sign. */
  function Expand(template: string, matched: string, before: string, after: string): string {
    if |template| == 0 then ""
    else if template[0] == '$' && |template| >= 2 && template[1] == '$' then
      "$" + Expand(template[2..], matched, before, after)
    else if template[0] == '$' && |template| >= 2 && template[1] == '&' then
      matched + Expand(template[2..], matched, before, after)
    else if template[0] == '$' && |template| >= 2 && template[1] == '`' then
      before + Expand(template[2..], matched, before, after)
    else if template[0] == '$' && |template| >= 2 && template[1] == '\'' then
      after + Expand(template[2..], matched, before, after)
    else [template[0]] + Expand(template[1..], matched, before, after)
  }

  /** A template without a dollar sign is inserted as it is. */
  lemma {:induction false} ExpandPlain(template: string, matched: string, before: string, after: string)
    requires '$' !in template
    ensures Expand(template, matched, before, after) == template
  {
    if |template| > 0 {
      assert template[0] in template;
      assert forall c :: c in template[1..] ==> c in template;
      ExpandPlain(template[1..], matched, before, after);
    }
  }

  /** `s.replace(pattern, replacement)`: the first occurrence of the
      pattern, and only it, is replaced by the expanded template; without
      an occurrence the string is returned as it is. */
  function ReplaceFirst(s: string, pattern: string, replacement: string): (r: string)
    ensures !Contains(s, pattern) ==> r == s
    ensures forall i :: (0 <= i <= |s| && OccursAt(s, pattern, i) && (forall j :: 0 <= j < i ==> !OccursAt(s, pattern, j))
      ==> r == s[..i] + Expand(replacement, pattern, s[..i], s[i + |pattern|..]) + s[i + |pattern|..])
  {
    match IndexOf(s, pattern)
    case None => s
    case Some(i) => s[..i] + Expand(replacement, pattern, s[..i], s[i + |pattern|..]) + s[i + |pattern|..]
  }

  /** Where the first occurrence is, and the template has no dollar sign,
      the replacement text goes in its place verbatim. */
  lemma ReplaceAt(s: string, pattern: string, replacement: string, i: nat)
    requires i <= |s| && OccursAt(s, pattern, i) && forall j :: 0 <= j < i ==> !OccursAt(s, pattern, j)
    requires '$' !in replacement
    ensures ReplaceFirst(s, pattern, replacement) == s[..i] + replacement + s[i + |pattern|..]
  {
    ExpandPlain(replacement, pattern, s[..i], s[i + |pattern|..]);
  }

  /** Replacing a pattern by itself changes nothing, unless the pattern
      has a dollar sign. */
  lemma ReplaceSelf(s: string, pattern: string)
    requires '$' !in pattern
    ensures ReplaceFirst(s, pattern, pattern) == s
  {
    match IndexOf(s, pattern)
    case None =>
    case Some(i) =>
      ReplaceAt(s, pattern, pattern, i);
      Reassemble(s, i, |pattern|);
  }

  /** With "$&" as the template the match is put back, so the string does
      not change either: the template is not inserted literally. */
  lemma ReplaceWithMatch(s: string, pattern: string)
    ensures ReplaceFirst(s, pattern, "$&") == s
  {
    match IndexOf(s, pattern)
    case None =>
    case Some(i) =>
      assert "$&"[2..] == "";
      assert Expand("$&", pattern, s[..i], s[i + |pattern|..]) == pattern;
      Reassemble(s, i, |pattern|);
  }

  lemma Reassemble(s: string, i: nat, n: nat)
    requires i + n <= |s|
    ensures s[..i] + s[i..i + n] + s[i + n..] == s
  {
  }

  /** Text before the first possible match position survives the
      replacement. */
  lemma ReplaceKeepsPrefix(s: string, pattern: string, replacement: string, n: nat)
    requires n <= |s|
    requires forall j :: 0 <= j < n ==> !OccursAt(s, pattern, j)
    ensures s[..n] <= ReplaceFirst(s, pattern, replacement)
  {
  }

  /** When the pattern occurs, a plain replacement text is in the result. */
  lemma ReplaceInserts(s: string, pattern: string, replacement: string)
    requires Contains(s, pattern) && '$' !in replacement
    ensures Contains(ReplaceFirst(s, pattern, replacement), replacement)
  {
    var i :| IndexOf(s, pattern) == Some(i);
    ReplaceAt(s, pattern, replacement, i);
    var r := ReplaceFirst(s, pattern, replacement);
    assert r[i..i + |replacement|] == replacement;
    assert OccursAt(r, replacement, i);
  }

  // ---------------------------------------------------------------------
  // Personas

  /** The base instructions, written around the two name slots: the
      debater's own name after the opening, the opponent's in the body. */
  const Opening := "You are "
  const NovaBody := "." + " You are a competitive debater arguing IN FAVOR of the user's topic. If the topic is a choice (e.g., 'Cats vs Dogs'), argue for the FIRST option. You must use concrete facts, scientific studies, statistics, and logical reasoning to back up your support. Respectfully but firmly dismantle "
  const NovaClosing := "'s counter-arguments."
  const SageBody := "." + " You are a competitive debater arguing AGAINST the user's topic. If the topic is a choice (e.g., 'Cats vs Dogs'), argue for the SECOND option. You must use historical precedents, risk analysis, counter-facts, and critical thinking to expose flaws in "
  const SageClosing := "'s position. Be skeptical and factual."
  const NovaInstruction := Opening + "Nova" + NovaBody + "Sage" + NovaClosing
  const SageInstruction := Opening + "Sage" + SageBody + "Nova" + SageClosing

  const BaseA := AgentConfig("Nova", "Kore", "#818cf8", NovaInstruction, Google, "gemini-2.5-flash", None, None)
  const BaseB := AgentConfig("Sage", "Fenrir", "#fb7185", SageInstruction, Google, "gemini-2.5-flash", None, None)

  datatype Mood = Neutral | Happy | Angry | Funny | Understanding | Bully | Vulgar

  function MoodLabel(m: Mood): string {
    match m
    case Neutral => "Neutral"
    case Happy => "Happy/Optimistic"
    case Angry => "Angry"
    case Funny => "Funny/Sarcastic"
    case Understanding => "Understanding"
    case Bully => "Bully"
    case Vulgar => "Vulgar/Rude"
  }

  function MoodInstruction(m: Mood): string {
    match m
    case Neutral => "Maintain a professional, objective, and composed tone."
    case Happy => "You are in a fantastic mood! Be cheerful, optimistic, and energetic."
    case Angry => "You are furious! Speak with intense anger, frustration, and impatience."
    case Funny => "Be hilarious, sarcastic, and witty. Crack jokes, use puns."
    case Understanding => "Be deeply empathetic, calm, and understanding."
    case Bully => "Act like a bully. Be mean, condescending, and mock your opponent."
    case Vulgar => "Use slang, street language, and mild profanity. Be raw and unfiltered."
  }

  /** The text appended to every composed instruction. */
  function MoodSuffix(m: Mood): string {
    " \n\nCURRENT MOOD: " + MoodInstruction(m)
  }

  /** A debater's editable settings: its configuration and its mood. */
  datatype AgentData = AgentData(config: AgentConfig, mood: Mood)

  const InitialA := AgentData(BaseA, Neutral)
  const InitialB := AgentData(BaseB, Neutral)

  /** A base instruction with its own name replaced first, then the
      opponent's, each at its first occurrence. */
  function Personalise(base: string, self: string, other: string, mine: string, theirs: string): string {
    ReplaceFirst(ReplaceFirst(base, self, mine), other, theirs)
  }

  /** Debater A's configuration: A's settings, with the instruction built
      from Nova's text, A's name for "Nova", B's for "Sage", and A's mood. */
  function ConfigA(a: AgentData, b: AgentData): (c: AgentConfig)
    ensures c.(systemInstruction := a.config.systemInstruction) == a.config
    ensures exists core :: c.systemInstruction == core + MoodSuffix(a.mood)
  {
    var core := Personalise(NovaInstruction, "Nova", "Sage", a.config.name, b.config.name);
    a.config.(systemInstruction := core + MoodSuffix(a.mood))
  }

  /** Debater B's configuration: B's name for "Sage" first, then A's for
      "Nova", in Sage's text, and B's mood. */
  function ConfigB(a: AgentData, b: AgentData): (c: AgentConfig)
    ensures c.(systemInstruction := b.config.systemInstruction) == b.config
    ensures exists core :: c.systemInstruction == core + MoodSuffix(b.mood)
  {
    var core := Personalise(SageInstruction, "Sage", "Nova", b.config.name, a.config.name);
    b.config.(systemInstruction := core + MoodSuffix(b.mood))
  }

  /** A match cannot start where the string differs from the pattern's
      first character, nor span a character the pattern lacks. */
  lemma NotAcross(s: string, pattern: string, j: nat, m: nat)
    requires j <= m < j + |pattern| && m < |s| && s[m] !in pattern
    ensures !OccursAt(s, pattern, j)
  {
    if j + |pattern| <= |s| {
      assert s[j..j + |pattern|][m - j] == s[m];
    }
  }

  /** No match can start inside a prefix that lacks the pattern's first
      character. */
  lemma NoMatchInOpening(open: string, rest: string, pattern: string)
    requires pattern != "" && pattern[0] !in open
    ensures forall j :: 0 <= j < |open| ==> !OccursAt(open + rest, pattern, j)
  {
    forall j | 0 <= j < |open|
      ensures !OccursAt(open + rest, pattern, j)
    {
      assert (open + rest)[j] == open[j];
      if (open + rest)[j] in pattern {
        NotAtHead(open + rest, pattern, j);
      } else {
        NotAcross(open + rest, pattern, j, j);
      }
    }
  }

  lemma NotAtHead(s: string, pattern: string, j: nat)
    requires pattern != "" && j < |s| && s[j] != pattern[0]
    ensures !OccursAt(s, pattern, j)
  {
    if j + |pattern| <= |s| {
      assert s[j..j + |pattern|][0] == s[j];
    }
  }

  /** The first replacement puts the debater's name in the opening. */
  lemma OwnNameReplaced(self: string, body: string, other: string, closing: string, mine: string)
    requires self != "" && self[0] !in Opening && '$' !in mine
    ensures ReplaceFirst(Opening + self + body + other + closing, self, mine) == Opening + mine + body + other + closing
  {
    Regroup(Opening, self, body, other, closing);
    Regroup(Opening, mine, body, other, closing);
    NameAfterOpening(self, body + other + closing, mine);
  }

  lemma Regroup(a: string, b: string, c: string, d: string, e: string)
    ensures a + b + c + d + e == a + b + (c + d + e)
  {
  }

  lemma NameAfterOpening(self: string, rest: string, mine: string)
    requires self != "" && self[0] !in Opening && '$' !in mine
    ensures ReplaceFirst(Opening + self + rest, self, mine) == Opening + mine + rest
  {
    var base := Opening + self + rest;
    assert base == Opening + (self + rest);
    NoMatchInOpening(Opening, self + rest, self);
    assert base[|Opening|..|Opening| + |self|] == self;
    assert OccursAt(base, self, |Opening|);
    ReplaceAt(base, self, mine, |Opening|);
    assert base[..|Opening|] == Opening;
    assert base[|Opening| + |self|..] == rest;
  }

  /** After it, the opponent's placeholder cannot match before the end of
      "You are <name>.". */
  lemma NoPlaceholderInOpening(mine: string, body: string, other: string, closing: string)
    requires other != "" && other[0] !in Opening
    requires body != "" && body[0] == '.' && '.' !in other
    requires !Contains(mine, other)
    ensures var s1 := Opening + mine + body + other + closing;
      forall j :: 0 <= j < |Opening| + |mine| + 1 ==> !OccursAt(s1, other, j)
  {
    var s1 := Opening + mine + body + other + closing;
    assert s1 == Opening + (mine + body + other + closing);
    NoMatchInOpening(Opening, mine + body + other + closing, other);
    var m := |Opening| + |mine|;
    assert s1[m] == '.';
    forall j | |Opening| <= j < m + 1
      ensures !OccursAt(s1, other, j)
    {
      if j + |other| <= m {
        assert s1[j..j + |other|] == mine[j - |Opening|..j - |Opening| + |other|];
        assert !OccursAt(mine, other, j - |Opening|);
      } else {
        NotAcross(s1, other, j, m);
      }
    }
  }

  /** The second replacement leaves "You are <name>." in front... */
  lemma OpponentNameReplaced(mine: string, body: string, other: string, closing: string, theirs: string)
    requires other != "" && other[0] !in Opening
    requires body != "" && body[0] == '.' && '.' !in other
    requires !Contains(mine, other) && '$' !in theirs
    ensures var s1 := Opening + mine + body + other + closing;
      && Opening + mine + "." <= ReplaceFirst(s1, other, theirs)
      && Contains(ReplaceFirst(s1, other, theirs), theirs)
  {
    var s1 := Opening + mine + body + other + closing;
    NoPlaceholderInOpening(mine, body, other, closing);
    var n := |Opening| + |mine| + 1;
    ReplaceKeepsPrefix(s1, other, theirs, n);
    assert s1[..n] == Opening + mine + ".";
    PlaceholderPresent(mine, body, other, closing);
    ReplaceInserts(s1, other, theirs);
  }

  /** ... and the opponent's placeholder is still there to be replaced. */
  lemma PlaceholderPresent(mine: string, body: string, other: string, closing: string)
    ensures Contains(Opening + mine + body + other + closing, other)
  {
    var s1 := Opening + mine + body + other + closing;
    var k := |Opening| + |mine| + |body|;
    assert s1[k..k + |other|] == other;
    assert OccursAt(s1, other, k);
  }

  /** The composition of a base instruction `Opening + self + body + other
      + closing`: when the debater's name has no dollar sign and does not
      contain the opponent's placeholder, the result still opens by naming
      the debater, and the opponent's name (if it has no dollar sign) is
      in it. */
  lemma PersonaliseNames(self: string, other: string, body: string, closing: string,
                         mine: string, theirs: string)
    requires self != "" && other != "" && self[0] !in Opening && other[0] !in Opening
    requires body != "" && body[0] == '.' && '.' !in other
    requires '$' !in mine && '$' !in theirs && !Contains(mine, other)
    ensures Opening + mine + "." <= Personalise(Opening + self + body + other + closing, self, other, mine, theirs)
    ensures Contains(Personalise(Opening + self + body + other + closing, self, other, mine, theirs), theirs)
  {
    OwnNameReplaced(self, body, other, closing, mine);
    OpponentNameReplaced(mine, body, other, closing, theirs);
  }

  /** Debater A's instruction opens "You are <A's name>." and names B,
      provided neither name has a dollar sign and A's name does not contain
      "Sage"; B's symmetrically, with "Nova". */
  lemma ComposedInstructionsNameBoth(a: AgentData, b: AgentData)
    requires '$' !in a.config.name && '$' !in b.config.name
    ensures !Contains(a.config.name, "Sage") ==>
      && Opening + a.config.name + "." <= ConfigA(a, b).systemInstruction
      && Contains(ConfigA(a, b).systemInstruction, b.config.name)
    ensures !Contains(b.config.name, "Nova") ==>
      && Opening + b.config.name + "." <= ConfigB(a, b).systemInstruction
      && Contains(ConfigB(a, b).systemInstruction, a.config.name)
  {
    PlaceholderFacts();
    if !Contains(a.config.name, "Sage") {
      PersonaliseNames("Nova", "Sage", NovaBody, NovaClosing, a.config.name, b.config.name);
      var core := Personalise(NovaInstruction, "Nova", "Sage", a.config.name, b.config.name);
      assert ConfigA(a, b).systemInstruction == core + MoodSuffix(a.mood);
      PrefixExtends(Opening + a.config.name + ".", core, MoodSuffix(a.mood));
      ContainsExtends(core, MoodSuffix(a.mood), b.config.name);
    }
    if !Contains(b.config.name, "Nova") {
      PersonaliseNames("Sage", "Nova", SageBody, SageClosing, b.config.name, a.config.name);
      var core := Personalise(SageInstruction, "Sage", "Nova", b.config.name, a.config.name);
      assert ConfigB(a, b).systemInstruction == core + MoodSuffix(b.mood);
      PrefixExtends(Opening + b.config.name + ".", core, MoodSuffix(b.mood));
      ContainsExtends(core, MoodSuffix(b.mood), a.config.name);
    }
  }

  /** The facts about the two base texts the composition lemmas use. */
  lemma PlaceholderFacts()
    ensures "Nova"[0] !in Opening && "Sage"[0] !in Opening
    ensures '.' !in "Nova" && '.' !in "Sage"
    ensures NovaBody != "" && NovaBody[0] == '.' && SageBody != "" && SageBody[0] == '.'
  {
  }

  lemma PrefixExtends(p: string, s: string, t: string)
    requires p <= s
    ensures p <= s + t
  {
    assert (s + t)[..|p|] == s[..|p|];
  }

  lemma ContainsExtends(s: string, t: string, sub: string)
    requires Contains(s, sub)
    ensures Contains(s + t, sub)
  {
    var i :| 0 <= i <= |s| && OccursAt(s, sub, i);
    assert (s + t)[i..i + |sub|] == s[i..i + |sub|];
    assert OccursAt(s + t, sub, i);
  }

  /** With the default names the instructions are the base texts plus the
      mood. */
  lemma DefaultInstructions()
    ensures ConfigA(InitialA, InitialB).systemInstruction == NovaInstruction + MoodSuffix(Neutral)
    ensures ConfigB(InitialA, InitialB).systemInstruction == SageInstruction + MoodSuffix(Neutral)
  {
    ReplaceSelf(NovaInstruction, "Nova");
    ReplaceSelf(NovaInstruction, "Sage");
    ReplaceSelf(SageInstruction, "Sage");
    ReplaceSelf(SageInstruction, "Nova");
  }

  /** Swapping the two names misnames debater A: its own-name replacement
      writes "Sage" into the opening, the next replacement finds that
      "Sage" first and turns it into "Nova", so A, now called Sage, is told
      "You are Nova." and the opponent slot keeps "Sage". */
  lemma SwappedNamesMisnameA(a: AgentData, b: AgentData)
    requires a.config.name == "Sage" && b.config.name == "Nova"
    ensures Opening + "Nova." <= ConfigA(a, b).systemInstruction
  {
    var core := SwappedCore(a.config.name, b.config.name);
    SwappedOpening(b.config.name);
    assert ConfigA(a, b).systemInstruction == core + MoodSuffix(a.mood);
    PrefixExtends(Opening + "Nova.", core, MoodSuffix(a.mood));
  }

  /** A's instruction before the mood, under swapped names. */
  lemma SwappedCore(mine: string, theirs: string) returns (core: string)
    requires mine == "Sage" && theirs == "Nova"
    ensures core == Personalise(NovaInstruction, "Nova", "Sage", mine, theirs)
    ensures core == Opening + theirs + NovaBody + "Sage" + NovaClosing
  {
    SwapOwnName(mine);
    SwapOpponentName(theirs);
    core := Opening + theirs + NovaBody + "Sage" + NovaClosing;
  }

  lemma SwappedOpening(theirs: string)
    requires theirs == "Nova"
    ensures Opening + "Nova." <= Opening + theirs + NovaBody + "Sage" + NovaClosing
  {
    PlaceholderFacts();
    var core := Opening + theirs + NovaBody + "Sage" + NovaClosing;
    assert core[..|Opening| + 5] == Opening + theirs + ".";
  }

  lemma SwapOwnName(mine: string)
    requires mine == "Sage"
    ensures ReplaceFirst(NovaInstruction, "Nova", mine) == Opening + "Sage" + NovaBody + "Sage" + NovaClosing
  {
    PlaceholderFacts();
    OwnNameReplaced("Nova", NovaBody, "Sage", NovaClosing, mine);
  }

  lemma SwapOpponentName(theirs: string)
    requires theirs == "Nova"
    ensures ReplaceFirst(Opening + "Sage" + NovaBody + "Sage" + NovaClosing, "Sage", theirs)
      == Opening + theirs + NovaBody + "Sage" + NovaClosing
  {
    PlaceholderFacts();
    OwnNameReplaced("Sage", NovaBody, "Sage", NovaClosing, theirs);
  }
}

=== FILE: retry.dfy ===
/** `retryWithBackoff` and its retryable-error test (hooks/useAgent.ts),
    over a scripted sequence of attempt outcomes in place of the real
    asynchronous operation and timers. */
module Retry {
  import opened Outcomes
  import opened Types
  import opened Strings

  /** The outcome of one call of the wrapped operation. */
  datatype Attempt<T> = Succeeded(value: T) | Threw(error: JsError)

  /** What one `retryWithBackoff` call does: the value it resolves to or
      the error it rethrows (`None` stands for rethrowing `undefined`, when
      no attempt was made), the delays it waited, in order, and the number
      of attempts it made. */
  datatype RetryRun<T> = RetryRun(result: Result<T, Option<JsError>>, waits: seq<int>, attempts: nat)

  /** The default attempt budget and first delay. */
  const DefaultMaxRetries := 3
  const DefaultBaseDelay := 2000

  /** A rate-limit signal: the message mentions 429, or `status` or `code`
      is 429. */
  predicate IsRateLimit(e: JsError) {
    (e.message.Some? && Contains(e.message.value, "429")) || e.status == Some(429) || e.code == Some(429)
  }

  /** An overload signal: the same test for 503. */
  predicate IsServerOverload(e: JsError) {
    (e.message.Some? && Contains(e.message.value, "503")) || e.status == Some(503) || e.code == Some(503)
  }

  predicate IsRetryable(e: JsError) {
    IsRateLimit(e) || IsServerOverload(e)
  }

  /** An attempt after which no further attempt is made: a success, or an
      error that is not retryable. */
  predicate Ends<T>(a: Attempt<T>) {
    a.Succeeded? || !IsRetryable(a.error)
  }

  /** The value an attempt resolves to or the error it throws. */
  function AsResult<T>(a: Attempt<T>): Result<T, Option<JsError>> {
    match a
    case Succeeded(v) => Ok(v)
    case Threw(e) => Err(Some(e))
  }

  function Pow2(i: nat): (p: nat)
    ensures p >= 1
  {
    if i == 0 then 1 else 2 * Pow2(i - 1)
  }

  function Sum(s: seq<int>): int {
    if |s| == 0 then 0 else s[0] + Sum(s[1..])
  }

  /** The loop of `retryWithBackoff` from attempt `i` on, `lastError` being
      the error of attempt `i - 1`: it makes at most the attempts left in
      the budget and waits at most once per attempt. */
  function RetryFrom<T>(outcomes: seq<Attempt<T>>, maxRetries: int, baseDelay: int, i: nat,
                        lastError: Option<JsError>): (run: RetryRun<T>)
    requires maxRetries <= |outcomes|
    ensures i >= maxRetries ==> run == RetryRun(Err(lastError), [], 0)
    ensures i < maxRetries ==> i + |run.waits| <= maxRetries && 1 <= run.attempts
    ensures run.attempts == |run.waits| || run.attempts == |run.waits| + 1
    decreases |outcomes| - i
  {
    if i >= maxRetries then RetryRun(Err(lastError), [], 0)
    else match outcomes[i]
      case Succeeded(v) => RetryRun(Ok(v), [], 1)
      case Threw(e) =>
        if IsRetryable(e) then
          var rest := RetryFrom(outcomes, maxRetries, baseDelay, i + 1, Some(e));
          RetryRun(rest.result, [baseDelay * Pow2(i)] + rest.waits, rest.attempts + 1)
        else RetryRun(Err(Some(e)), [], 1)
  }

  /** The delays after attempts `i` to `i + n - 1`: `baseDelay * 2^k`
      after attempt `k`. */
  function Backoff(baseDelay: int, i: nat, n: nat): (w: seq<int>)
    ensures |w| == n
    decreases n
  {
    if n == 0 then [] else [baseDelay * Pow2(i)] + Backoff(baseDelay, i + 1, n - 1)
  }

  /** Attempts `i` to `i + n - 1` all failed with retryable errors. */
  predicate AllRetried<T>(outcomes: seq<Attempt<T>>, i: nat, n: nat)
    requires i + n <= |outcomes|
    decreases n
  {
    n == 0 || (!Ends(outcomes[i]) && AllRetried(outcomes, i + 1, n - 1))
  }

  /** The closed form of both recursive definitions. */
  lemma {:induction false} BackoffAt<T>(outcomes: seq<Attempt<T>>, baseDelay: int, i: nat, n: nat)
    requires i + n <= |outcomes|
    ensures forall j :: 0 <= j < n ==> Backoff(baseDelay, i, n)[j] == baseDelay * Pow2(i + j)
    ensures AllRetried(outcomes, i, n) <==> forall j :: i <= j < i + n ==> !Ends(outcomes[j])
    decreases n
  {
    if n > 0 {
      BackoffAt(outcomes, baseDelay, i + 1, n - 1);
    }
  }

  /** The loop waits after a run of retryable failures and stops at the
      first success (its value is the result) or the first non-retryable
      error (rethrown without a wait); when the budget is used up, the last
      error is rethrown after its wait. */
  lemma {:induction false} RetryFromSpec<T>(outcomes: seq<Attempt<T>>, maxRetries: int, baseDelay: int, i: nat,
                                             lastError: Option<JsError>)
    requires maxRetries <= |outcomes|
    ensures var run := RetryFrom(outcomes, maxRetries, baseDelay, i, lastError);
      && (i < maxRetries ==> AllRetried(outcomes, i, |run.waits|))
      && run.waits == Backoff(baseDelay, i, |run.waits|)
      && (i + |run.waits| < maxRetries ==>
            && Ends(outcomes[i + |run.waits|])
            && run.attempts == |run.waits| + 1
            && run.result == AsResult(outcomes[i + |run.waits|]))
      && (i < maxRetries <= i + |run.waits| ==>
            && run.attempts == |run.waits|
            && run.result == AsResult(outcomes[i + |run.waits| - 1]))
    decreases |outcomes| - i
  {
    if i < maxRetries && outcomes[i].Threw? && IsRetryable(outcomes[i].error) {
      RetryFromSpec(outcomes, maxRetries, baseDelay, i + 1, Some(outcomes[i].error));
    }
  }

  /** `retryWithBackoff(operation, maxRetries, baseDelay)`; attempt `i` of
      the operation has outcome `outcomes[i]`. At most `maxRetries`
      attempts are made, and a result is returned only if some attempt
      succeeds: the first one that does. */
  function RetryWithBackoff<T>(outcomes: seq<Attempt<T>>, maxRetries: int, baseDelay: int): (run: RetryRun<T>)
    requires maxRetries <= |outcomes|
    ensures run.attempts <= if maxRetries < 0 then 0 else maxRetries
    ensures |run.waits| <= if maxRetries < 0 then 0 else maxRetries
    ensures run.result.Ok? <==> exists k :: 0 <= k < maxRetries && outcomes[k].Succeeded?
                                 && forall j :: 0 <= j < k ==> !Ends(outcomes[j])
    ensures run.attempts == 0 <==> maxRetries <= 0
    ensures run.attempts == 0 ==> run.result == Err(None)
    ensures run.attempts >= 1 ==> run.result == AsResult(outcomes[run.attempts - 1])
    ensures run.attempts >= 1 ==> (forall j :: 0 <= j < run.attempts - 1 ==> !Ends(outcomes[j]))
                                  && (Ends(outcomes[run.attempts - 1]) || run.attempts == maxRetries)
    ensures run.attempts >= 1 ==> |run.waits| == if Ends(outcomes[run.attempts - 1]) then run.attempts - 1 else run.attempts
    ensures forall j :: 0 <= j < |run.waits| ==> !Ends(outcomes[j]) && run.waits[j] == baseDelay * Pow2(j)
  {
    var run := RetryFrom(outcomes, maxRetries, baseDelay, 0, None);
    RetryFromSpec(outcomes, maxRetries, baseDelay, 0, None);
    assert forall j :: 0 <= j < |run.waits| ==> !Ends(outcomes[j]) && run.waits[j] == baseDelay * Pow2(j) by {
      if maxRetries > 0 {
        BackoffAt(outcomes, baseDelay, 0, |run.waits|);
      }
    }
    assert (exists k :: 0 <= k < maxRetries && outcomes[k].Succeeded? && forall j :: 0 <= j < k ==> !Ends(outcomes[j]))
           ==> run.result.Ok? by {
      if k :| 0 <= k < maxRetries && outcomes[k].Succeeded? && forall j :: 0 <= j < k ==> !Ends(outcomes[j]) {
        assert Ends(outcomes[k]);
      }
    }
    run
  }

  /** A non-retryable error on the first attempt is rethrown at once: one
      attempt, no wait. */
  lemma FatalFirstAttempt<T>(outcomes: seq<Attempt<T>>, maxRetries: int, baseDelay: int)
    requires 1 <= maxRetries <= |outcomes|
    requires outcomes[0].Threw? && !IsRetryable(outcomes[0].error)
    ensures RetryWithBackoff(outcomes, maxRetries, baseDelay) == RetryRun(Err(Some(outcomes[0].error)), [], 1)
  {
  }

  /** Two rate-limit errors then a success, with the defaults: the value
      is returned after waiting 2000 ms and then 4000 ms. */
  lemma TwoRateLimitsThenSuccess(v: int)
    ensures var limited: Attempt<int> := Threw(ErrorWithMessage("429 Too Many Requests"));
      var run := RetryWithBackoff([limited, limited, Succeeded(v)], DefaultMaxRetries, DefaultBaseDelay);
      run.result == Ok(v) && run.waits == [2000, 4000] && Sum(run.waits) == 6000 && run.attempts == 3
  {
    var limited: Attempt<int> := Threw(ErrorWithMessage("429 Too Many Requests"));
    var o := [limited, limited, Succeeded(v)];
    assert OccursAt("429 Too Many Requests", "429", 0);
    assert !Ends(limited);
    var r2 := RetryFrom(o, 3, 2000, 2, Some(limited.error));
    assert r2 == RetryRun(Ok(v), [], 1);
    var r1 := RetryFrom(o, 3, 2000, 1, Some(limited.error));
    assert r1 == RetryRun(Ok(v), [4000], 2);
    var r0 := RetryFrom(o, 3, 2000, 0, None);
    assert r0 == RetryRun(Ok(v), [2000, 4000], 3);
  }

  /** Three rate-limit errors with the defaults: three waits, 14000 ms in
      all, the last one after the final attempt, then the last error is
      rethrown. */
  lemma ThreeRateLimitsExhaust(e1: JsError, e2: JsError, e3: JsError)
    requires e1.status == Some(429) && e2.status == Some(429) && e3.status == Some(429)
    ensures var run := RetryWithBackoff<int>([Threw(e1), Threw(e2), Threw(e3)], DefaultMaxRetries, DefaultBaseDelay);
      run.result == Err(Some(e3)) && run.waits == [2000, 4000, 8000] && Sum(run.waits) == 14000
  {
    var o: seq<Attempt<int>> := [Threw(e1), Threw(e2), Threw(e3)];
    var r2 := RetryFrom(o, 3, 2000, 2, Some(e2));
    assert r2 == RetryRun(Err(Some(e3)), [8000], 1);
    var r1 := RetryFrom(o, 3, 2000, 1, Some(e1));
    assert r1 == RetryRun(Err(Some(e3)), [4000, 8000], 2);
    var r0 := RetryFrom(o, 3, 2000, 0, None);
    assert r0.waits == [2000, 4000, 8000];
  }

  /** An `Error` built from a status text alone, as the OpenAI-compatible
      and Anthropic adapters throw, is not retried for HTTP 429 unless the
      text mentions the code: "Too Many Requests" is fatal. */
  lemma StatusTextOnlyIsNotRetried()
    ensures !IsRetryable(ErrorWithMessage("Too Many Requests"))
  {
    var m := "Too Many Requests";
    assert forall i :: 0 <= i <= |m| ==> !OccursAt(m, "429", i) by {
      forall i | 0 <= i <= |m|
        ensures !OccursAt(m, "429", i)
      {
        if i + 3 <= |m| {
          assert m[i..i + 3][0] == m[i];
        }
      }
    }
    assert forall i :: 0 <= i <= |m| ==> !OccursAt(m, "503", i) by {
      forall i | 0 <= i <= |m|
        ensures !OccursAt(m, "503", i)
      {
        if i + 3 <= |m| {
          assert m[i..i + 3][0] == m[i];
        }
      }
    }
  }
}

=== FILE: strings.dfy ===
/** The JavaScript string operations the application relies on, over
    `string` as a sequence of characters. */
module Strings {
  import opened Outcomes

  /** `sub` occurs in `s` starting at index `i`. */
  predicate OccursAt(s: string, sub: string, i: int) {
    0 <= i && i + |sub| <= |s| && s[i..i + |sub|] == sub
  }

  /** `String.prototype.includes`. */
  predicate Contains(s: string, sub: string) {
    exists i :: 0 <= i <= |s| && OccursAt(s, sub, i)
  }

  /** `String.prototype.indexOf`: the first index at which `sub` occurs. */
  function IndexOf(s: string, sub: string): (r: Option<nat>)
    ensures r.Some? ==> OccursAt(s, sub, r.value)
    ensures r.Some? ==> forall j :: 0 <= j < r.value ==> !OccursAt(s, sub, j)
    ensures r.None? <==> !Contains(s, sub)
  {
    IndexOfFrom(s, sub, 0)
  }

  /** The first occurrence of `sub` in `s` at an index no smaller than `k`. */
  function IndexOfFrom(s: string, sub: string, k: nat): (r: Option<nat>)
    ensures r.Some? ==> k <= r.value && OccursAt(s, sub, r.value)
    ensures r.Some? ==> forall j :: k <= j < r.value ==> !OccursAt(s, sub, j)
    ensures r.None? ==> forall j :: k <= j ==> !OccursAt(s, sub, j)
    decreases |s| - k
  {
    if k + |sub| > |s| then None
    else if s[k..k + |sub|] == sub then Some(k)
    else IndexOfFrom(s, sub, k + 1)
  }

  /** WhiteSpace and LineTerminator code units of ECMAScript (section 12.2 and
      12.3 of ECMA-262): what `trim` and `parseInt` skip. */
  predicate IsJsSpace(c: char) {
    || c == '\t' || c == '\n' || c == '\U{000B}' || c == '\U{000C}' || c == '\r'
    || c == ' ' || c == '\U{00A0}' || c == '\U{1680}'
    || ('\U{2000}' <= c <= '\U{200A}')
    || c == '\U{2028}' || c == '\U{2029}' || c == '\U{202F}' || c == '\U{205F}'
    || c == '\U{3000}' || c == '\U{FEFF}'
  }

  /** Every character of `s` is white space (`s.trim() === ""`). */
  predicate IsBlank(s: string) {
    forall k :: 0 <= k < |s| ==> IsJsSpace(s[k])
  }

  /** Number of leading white-space characters. */
  function LeadingSpace(s: string): (i: nat)
    ensures i <= |s|
    ensures forall k :: 0 <= k < i ==> IsJsSpace(s[k])
    ensures i < |s| ==> !IsJsSpace(s[i])
  {
    if |s| == 0 || !IsJsSpace(s[0]) then 0 else 1 + LeadingSpace(s[1..])
  }

  /** Length of `s` without its trailing white space. */
  function TrailingSpaceStart(s: string): (j: nat)
    ensures j <= |s|
    ensures forall k :: j <= k < |s| ==> IsJsSpace(s[k])
    ensures 0 < j ==> !IsJsSpace(s[j - 1])
  {
    if |s| == 0 || !IsJsSpace(s[|s| - 1]) then |s| else TrailingSpaceStart(s[..|s| - 1])
  }

  /** `String.prototype.trim`. */
  function Trim(s: string): (r: string)
    ensures r == "" <==> IsBlank(s)
    ensures r != "" ==> !IsJsSpace(r[0]) && !IsJsSpace(r[|r| - 1])
    ensures r != "" ==> OccursAt(s, r, LeadingSpace(s))
    ensures r != "" ==> IsBlank(s[..LeadingSpace(s)]) && IsBlank(s[LeadingSpace(s) + |r|..])
  {
    var i := LeadingSpace(s);
    var j := TrailingSpaceStart(s);
    if i < j then s[i..j] else ""
  }

  /** Trimming undoes blank padding around a string that neither starts
      nor ends with white space. */
  lemma TrimPadded(pre: string, t: string, post: string)
    requires IsBlank(pre) && IsBlank(post)
    requires t != "" && !IsJsSpace(t[0]) && !IsJsSpace(t[|t| - 1])
    ensures Trim(pre + t + post) == t
  {
    var s := pre + t + post;
    var i := LeadingSpace(s);
    var j := TrailingSpaceStart(s);
    assert s[|pre|] == t[0];
    assert s[|pre| + |t| - 1] == t[|t| - 1];
    assert i == |pre|;
    assert j == |pre| + |t|;
    assert s[i..j] == t;
  }

  /** `parts.join(sep)`. */
  function Join(parts: seq<string>, sep: string): string
  {
    if |parts| == 0 then ""
    else if |parts| == 1 then parts[0]
    else parts[0] + sep + Join(parts[1..], sep)
  }

  /** `s.split(c)` for a one-character separator: the maximal pieces of `s`
      between occurrences of `c`; the empty string splits into `[""]`. */
  function Split(s: string, c: char): (r: seq<string>)
    ensures |r| >= 1
  {
    if |s| == 0 then [""]
    else
      var rest := Split(s[1..], c);
      if s[0] == c then [""] + rest else [[s[0]] + rest[0]] + rest[1..]
  }

  /** A piece without the separator is left whole by `Split`. */
  lemma {:induction false} SplitNoSeparator(p: string, c: char)
    requires c !in p
    ensures Split(p, c) == [p]
  {
    if |p| != 0 {
      SplitNoSeparator(p[1..], c);
      assert [p[0]] + p[1..] == p;
    }
  }

  /** Splitting stops at the first separator. */
  lemma {:induction false} SplitAtSeparator(p: string, c: char, t: string)
    requires c !in p
    ensures Split(p + [c] + t, c) == [p] + Split(t, c)
  {
    if |p| == 0 {
      assert p + [c] + t == [c] + t;
      assert ([c] + t)[1..] == t;
    } else {
      var s := p + [c] + t;
      assert s[1..] == p[1..] + [c] + t;
      SplitAtSeparator(p[1..], c, t);
      assert [p[0]] + p[1..] == p;
    }
  }

  /** `split` undoes `join` when no piece contains the separator. */
  lemma {:induction false} SplitJoin(parts: seq<string>, c: char)
    requires |parts| >= 1
    requires forall k :: 0 <= k < |parts| ==> c !in parts[k]
    ensures Split(Join(parts, [c]), c) == parts
  {
    if |parts| == 1 {
      SplitNoSeparator(parts[0], c);
    } else {
      SplitJoin(parts[1..], c);
      SplitAtSeparator(parts[0], c, Join(parts[1..], [c]));
      assert [parts[0]] + parts[1..] == parts;
    }
  }
}

=== FILE: types.dfy ===
/** The records shared by the agent hook, the orchestrator and the meter
    (`types.ts`), plus the JavaScript values the catch blocks inspect. */
module Types {
  import opened Outcomes

  /** An unsigned 8-bit value: an element of a `Uint8Array`. */
  type Byte = x: int | 0 <= x < 256

  /** The text provider an agent is configured with. */
  datatype Provider = Google | OpenAI | Anthropic | Custom

  /** One debater's configuration; the optional key and endpoint are `None`
      when they were never set. */
  datatype AgentConfig = AgentConfig(
    name: string,
    voice: string,
    color: string,
    systemInstruction: string,
    provider: Provider,
    model: string,
    apiKey: Option<string>,
    apiEndpoint: Option<string>)

  /** One transcript entry. */
  datatype ChatMessage = ChatMessage(id: string, sender: string, text: string, timestamp: int)

  /** The status an agent shows. */
  datatype AgentStatus = Idle | Thinking | Speaking | Error

  /** A thrown JavaScript error as the catch blocks read it: the optional
      `message`, `status` and `code` properties. */
  datatype JsError = JsError(message: Option<string>, status: Option<int>, code: Option<int>)

  /** An `Error` built with `new Error(message)`: a message and nothing else. */
  function ErrorWithMessage(message: string): JsError {
    JsError(Some(message), None, None)
  }

  /** JavaScript's `s || fallback` on an optional string: a missing value and
      the empty string are both falsy. */
  function OrElse(s: Option<string>, fallback: string): (r: string)
    ensures s.Some? && s.value != "" ==> r == s.value
    ensures s.None? || s.value == "" ==> r == fallback
    ensures r == "" ==> fallback == ""
  {
    if s.Some? && s.value != "" then s.value else fallback
  }
}
